=== FILE: README.md ===
# Binary stream codec and in-memory byte stream, in Dafny

This project models the core of a small Python library of binary streams.

`Stream` (stream.py) is the codec every backend shares. It holds:
- the current byte order (`endian`) and a stack for `push_endian` / `pop_endian`;
- writers and readers for bool, u16, u24, u32 and u64 in the current byte order;
- writers and readers for the variable-length unsigned quantity (VLUQ: seven bits per byte, least significant group first, top bit set on every byte but the last);
- the signed VLUQ variant (VLSQ: the magnitude shifted left one bit, the sign in bit 0);
- latin-1 strings: raw, NUL-terminated, CR/LF-terminated and VLUQ-length-prefixed.

`ByteStream` (bytestream.py) is the in-memory backend:
- a growable byte array that writes append to;
- a logical `length`;
- a read cursor that writes never touch, and a stack of saved cursors;
- the three seek modes.

streams.py gathers the library into one module. Its copies of both classes (streams.py:8-317) match the two files above. It adds two UTF-16 readers and the comma-joined, u32-length-prefixed name list (`write_name_list` / `read_name_list`). The shared code is modelled once.

Layout:
- `Wrappers`: `Option`, `Result` (for pops) and `Outcome`. An `Outcome` is either a value with the resulting stream, or a raised error with the stream as the failing call left it. Python does not roll back, so a composite read that fails half way leaves the cursor advanced, and the model keeps that state.
- `Bytes`: the byte type and little-endian values. It also models the parts of Python the streams rely on: indexing with negative indices, slice clamping, and the latin-1 mapping.
- `Endian`: the endian value and its stack. As in the source, the value is any integer, and the codec only ever tests it for equality with `LITTLE_ENDIAN` (0). Anything else behaves as big-endian.
- `Encoding`: each writer as the pure byte string it appends, with layout lemmas against reference definitions: the field value `Word`, the VLUQ framing `IsVluq` / `IsMinimalVluq` and the VLUQ value `VluqValue`.
- `Buffer`: the `ByteStream` state and its operations.
- `Stream`: the writers, and the readers built from `read_u8` / `read_u8_array` in the order the source calls them. Every writer is proved to round-trip through its reader; `read_crlf_string` has no writer.
- `NameList`: `",".join`, `str.split(",")` and the name-list framing.

Behaviour of the code that the model keeps:
- `read_u8` is bounded by the number of stored bytes, not by the logical length. A negative cursor reads from the end of the array, as Python indexing does.
- `read_u8_array` and therefore `read_string` never raise. Past the end of the stored bytes they return a short result and still move the cursor by the full count. When the logical length is the number of stored bytes, `is_eof` is then false. A `set_data` length beyond the stored bytes is the exception: an over-read that ends exactly at that length leaves `is_eof` true.
- A multi-byte read that runs out part way raises with the cursor already moved by the bytes it did read.
- `read_crlf_string` does not check that the byte after 0x0D is 0x0A.

## Model

| member | source | states |
|---|---|---|
| Endian.Init | stream.py:15-18 | a falsy endian argument (absent or 0) selects little-endian, any other value is kept; the endian stack starts empty |
| Endian.Set | stream.py:23-24 | `set_endian` stores the value unvalidated and leaves the saved stack alone |
| Endian.Push | stream.py:29-32 | the current value is saved on top of the stack; a push without a value keeps the current value, a push with one switches to it |
| Endian.Pop | stream.py:34-35 | an empty stack raises; otherwise the top value becomes current and the stack loses exactly that entry |
| Endian.PopUndoesPush | stream.py:29-35 | a pop right after a push restores the exact prior state, with or without a pushed value |
| Endian.PopsUndoPushes | stream.py:29-35 | any sequence of pushes is undone in LIFO order by the same number of pops |
| Endian.PopNPastDepthFails | stream.py:34-35 | popping more times than values were saved raises |
| Bytes.PyIndex | bytestream.py:71-74 | indexing succeeds exactly for -len <= i < len; a non-negative index selects that element and a negative one counts back from the end |
| Bytes.PySlice | bytestream.py:76-79 | a slice never raises; each bound is clamped to the sequence, a negative bound counting from the end; the result is the elements between the clamped bounds, empty when the stop is not past the start |
| Bytes.SliceMixedSigns | bytestream.py:76-79 | for every sequence: a start in 0..len with a stop in -len..-1 selects s[start : len + stop] (empty when that stop is not past the start), and a start in -len..-1 with a stop at or past the end selects s[len + start :]; for example `[0,1,2,3,4][2:-1]` is `[2,3]` |
| Bytes.Latin1DecodeEncode | stream.py:195-197 | latin-1 decoding inverts latin-1 encoding for every encodable string |
| Encoding.WordAppend | stream.py:148-160 | a field read as two consecutive halves: little-endian puts the first half low, big-endian puts it high |
| Encoding.EncodeBool | stream.py:43-44 | `write_bool` writes one byte, 1 for true and 0 for false |
| Encoding.EncodeU16 | stream.py:46-52 | two bytes whose value in the given byte order is v |
| Encoding.EncodeU24 | stream.py:54-62 | three bytes whose value in the given byte order is v |
| Encoding.EncodeU32 | stream.py:64-70 | four bytes, the two u16 halves, whose value in the given byte order is v |
| Encoding.EncodeU64 | stream.py:72-78 | eight bytes, the two u32 halves, whose value in the given byte order is v |
| Encoding.U16Layout | stream.py:46-52 | the two bytes hold the value in the current byte order; the big-endian bytes are the little-endian ones reversed |
| Encoding.U24Layout | stream.py:54-62 | as for u16, over three bytes |
| Encoding.U32Layout | stream.py:64-70 | the two u16 halves compose into one four-byte field in the current order; big-endian is the reverse of little-endian |
| Encoding.U64Layout | stream.py:72-78 | the two u32 halves compose into one eight-byte field; big-endian is the reverse of little-endian |
| Encoding.VluqEncodingLayout | stream.py:96-100 | the VLUQ bytes set the top bit on every byte but the last, have no redundant trailing zero group, and carry exactly the value |
| Encoding.VluqEncodingLength | stream.py:96-100 | the encoding uses the fewest seven-bit groups that can hold the value (one byte for 0) |
| Encoding.VluqCanonical | stream.py:96-100 | every minimal VLUQ is the encoding of its own value, so the encoder is a bijection onto minimal VLUQs |
| Encoding.WriteVluqLoop | stream.py:96-100 | the source's loop appends exactly the VLUQ encoding, which is minimal and carries the value |
| Encoding.EncodeVlsq | stream.py:104-107 | the VLSQ of any integer is a minimal VLUQ |
| Encoding.VlsqRoundTrip | stream.py:104-107 | decoding the VLUQ carried by a VLSQ, bit 0 as sign and the rest as magnitude, gives back every integer |
| Encoding.VlsqZero | stream.py:189-193 | zero is written as the single byte 0x00; the unsigned quantities 0 and 1 both decode to 0 |
| Encoding.EncodeNtString | stream.py:114-116 | a NUL-terminated string is its latin-1 bytes followed by exactly one zero byte |
| Encoding.EncodeVluqString | stream.py:119-122 | a VLUQ-prefixed string is the VLUQ of its byte count followed by its latin-1 bytes |
| Buffer.New | bytestream.py:16-20 | a new stream is empty with the cursor at 0, where `is_eof` holds, and carries the endian state `Stream.__init__` sets |
| Buffer.Reset | bytestream.py:22-26 | reset empties data, length, cursor and cursor stack, keeps the endian state, and leaves the stream at end of file |
| Buffer.SetData | bytestream.py:28-34 | new bytes, cursor rewound to 0; a truthy length argument becomes the logical length, otherwise the byte count does |
| Buffer.SetReadPosition | bytestream.py:40-46 | SEEK_SET is absolute, SEEK_CUR relative to the cursor, any other mode relative to the logical length; nothing else changes |
| Buffer.SeekModesAgree | bytestream.py:40-46 | SEEK_CUR is SEEK_SET to cursor + offset, any other mode is SEEK_SET to length + offset, and seeking back to the old cursor restores the stream |
| Buffer.PushReadPosition | bytestream.py:51-55 | returns the old cursor, saves it on the stack and jumps to the new position |
| Buffer.PopReadPosition | bytestream.py:57-58 | an empty stack raises; otherwise the saved cursor is restored and removed from the stack |
| Buffer.IsEof | bytestream.py:60-61 | `is_eof` holds exactly when a seek of 0 from the end would leave the stream as it is |
| Buffer.WriteU8 | bytestream.py:63-65 | appends one byte and adds one to the length; cursor, cursor stack and endian state are untouched |
| Buffer.WriteU8Array | bytestream.py:67-69 | appends the bytes and adds their count to the length; cursor, cursor stack and endian state are untouched |
| Buffer.ReadU8 | bytestream.py:71-74 | succeeds exactly when -len(data) <= cursor < len(data), returning the byte at the cursor (counted from the end when negative) and moving the cursor by one; otherwise raises with the stream unchanged |
| Buffer.ReadU8Array | bytestream.py:76-79 | returns the clamped slice from the cursor (short or empty near the end) and always moves the cursor by the requested count |
| Buffer.ReadU8s | bytestream.py:71-74 | n successive `read_u8` calls return n bytes and move the cursor by n; from a non-negative cursor they return exactly the next n stored bytes, and past the end they raise with the cursor moved by fewer than n |
| Buffer.WritesCompose | bytestream.py:63-69 | a `write_u8` is a one-byte `write_u8_array`, and consecutive array writes are one write of the concatenation |
| Buffer.WriteExtendsUnread | bytestream.py:67-69 | writing mid-read appends behind the bytes still unread, which read back unchanged |
| Buffer.EofIffReadFails | bytestream.py:60-74 | when the length equals the byte count, `is_eof` holds exactly when the next `read_u8` raises |
| Buffer.ReadingToEof | bytestream.py:28-74 | after `set_data(d)`, k reads return d[:k]; `is_eof` and a failing next read happen exactly at k = len(d) |
| Buffer.OverReadPassesEof | bytestream.py:76-79 | an over-read returns only the remaining bytes but moves the cursor past the length, where `is_eof` is false and `read_u8` raises |
| Buffer.OverReadToLogicalLength | bytestream.py:28-79 | with a `set_data` length beyond the stored bytes, an over-read ending exactly at that length returns only the existing bytes and leaves `is_eof` true, e.g. `set_data(b"\x01\x02\x03", 5)` then `read_u8_array(5)` |
| Buffer.PopPositionUndoesPush | bytestream.py:51-58 | a pop right after a push restores the exact cursor and cursor stack |
| Buffer.PopsRestorePositions | bytestream.py:51-58 | nested cursor pushes are undone in LIFO order by as many pops |
| Buffer.PopPositionsPastDepthFails | bytestream.py:57-58 | popping more cursors than were saved raises |
| Stream.PushEndian | stream.py:29-32 | pushing an endian value on a stream changes only its endian state |
| Stream.PopEndian | stream.py:34-35 | popping raises exactly on an empty endian stack and otherwise changes only the endian state |
| Stream.WriteBool | stream.py:43-44 | appends one byte, nonzero exactly for true; only the data and length grow |
| Stream.WriteU16 | stream.py:46-52 | appends two bytes whose value in the current byte order is v; only the data and length grow |
| Stream.WriteU24 | stream.py:54-62 | appends three bytes whose value in the current byte order is v |
| Stream.WriteU32 | stream.py:64-70 | appends four bytes whose value in the current byte order is v |
| Stream.WriteU64 | stream.py:72-78 | appends eight bytes whose value in the current byte order is v |
| Stream.WriteVluq | stream.py:96-100 | appends a minimal VLUQ whose value is v |
| Stream.WriteVlsq | stream.py:104-107 | appends a minimal VLUQ whose signed reading (bit 0 the sign, the rest the magnitude) is v |
| Stream.WriteString | stream.py:109-111 | appends one byte per character, and those bytes decode back to the text |
| Stream.WriteNtString | stream.py:114-116 | appends bytes that decode back to the text, then one zero byte |
| Stream.WriteVluqString | stream.py:119-122 | appends a minimal VLUQ holding the character count, then bytes that decode back to the text |
| Stream.WrittenIsUpcoming | bytestream.py:63-74 | bytes written when everything before them has been read are the next bytes read |
| Stream.ReadBool | stream.py:130-132 | reads one byte; the result is false only for 0, true for every other byte |
| Stream.BoolRoundTrip | stream.py:130-132 | `read_bool` after `write_bool(b)` returns b and consumes one byte |
| Stream.ReadU16 | stream.py:134-139 | a successful read is below 2^16 and moves the cursor by 2; a failing read raises `IndexOutOfRange` with only the cursor moved, by fewer than 2 |
| Stream.ReadU24 | stream.py:141-146 | a successful read is below 2^24 and moves the cursor by 3; a failing read raises `IndexOutOfRange` with only the cursor moved, by fewer than 3 |
| Stream.ReadU32 | stream.py:148-153 | a successful read is below 2^32 and moves the cursor by 4; a failing read raises `IndexOutOfRange` with only the cursor moved, by fewer than 4 |
| Stream.ReadU64 | stream.py:155-160 | a successful read is below 2^64 and moves the cursor by 8; a failing read raises `IndexOutOfRange` with only the cursor moved, by fewer than 8 |
| Stream.ReadU16Reads | stream.py:134-139 | two upcoming bytes read as their value in the current byte order |
| Stream.ReadU24Reads | stream.py:141-146 | three upcoming bytes read as their value in the current byte order |
| Stream.ReadU32Reads | stream.py:148-153 | four upcoming bytes read as their value in the current byte order |
| Stream.ReadU64Reads | stream.py:155-160 | eight upcoming bytes read as their value in the current byte order |
| Stream.U16RoundTrip | stream.py:134-139 | reading a u16 where one was written in the same byte order returns it and consumes 2 bytes |
| Stream.U24RoundTrip | stream.py:141-146 | reading a u24 where one was written returns it and consumes 3 bytes |
| Stream.U32RoundTrip | stream.py:148-153 | reading a u32 where one was written returns it and consumes 4 bytes |
| Stream.U64RoundTrip | stream.py:155-160 | reading a u64 where one was written returns it and consumes 8 bytes |
| Stream.FixedWidthWriteRead | stream.py:134-160 | on a stream read to its end, each of `read_u16`, `read_u24`, `read_u32`, `read_u64` returns the value its writer just appended and consumes exactly its width |
| Stream.FixedWidthNeedsBytes | stream.py:134-160 | from a non-negative cursor, a fixed-width read succeeds exactly when its width in stored bytes remains |
| Stream.ScopedEndianRoundTrip | stream.py:29-35 | a u32 written inside a push_endian(e)/pop_endian scope reads back inside a matching scope, and the pop restores the prior endian state |
| Stream.ReadVluq | stream.py:178-185 | only the cursor moves, forward by at least one byte on success; running out of bytes raises |
| Stream.ReadVluqReads | stream.py:178-185 | `read_vluq` of any well-framed VLUQ, minimal or not, returns its value and consumes exactly its bytes |
| Stream.VluqRoundTrip | stream.py:178-185 | `read_vluq` after `write_vluq(v)` returns v and consumes exactly the written bytes |
| Stream.ReadVluqTruncated | stream.py:178-185 | a VLUQ cut off before its final byte makes `read_vluq` raise, with the cursor left at the end of the data |
| Stream.ReadVluqLoop | stream.py:178-185 | the source's while loop computes the same outcome as the recursive reader |
| Stream.ReadVlsq | stream.py:189-193 | `read_vlsq` succeeds exactly when its `read_vluq` does and leaves the cursor where that read left it |
| Stream.VlsqStreamRoundTrip | stream.py:189-193 | `read_vlsq` after `write_vlsq(v)` returns v for every integer and consumes exactly the written bytes |
| Stream.ReadString | stream.py:195-197 | always moves the cursor by the count; within the data it decodes exactly those bytes; past the end it decodes every remaining byte, fewer than asked for |
| Stream.ReadStringReads | stream.py:195-197 | `read_string` of upcoming bytes decodes exactly them |
| Stream.StringWritesRead | stream.py:109-122 | on a stream read to its end, `read_string`, `read_nt_string` (for text without NUL) and `read_vluq_string` return the text their writers just appended and consume exactly the bytes written |
| Stream.ReadNtString | stream.py:200-206 | a successful read consumes at least the terminator |
| Stream.NtStringRoundTrip | stream.py:200-206 | `read_nt_string` after `write_nt_string(s)` returns s when s has no NUL, consuming len(s)+1 bytes |
| Stream.ReadNtTruncated | stream.py:200-206 | from a non-negative cursor with no zero byte left, the read runs off the end and raises, with the cursor left at the end of the data |
| Stream.ReadCrlfString | stream.py:209-217 | a successful read returns at least two characters, the second-to-last being 0x0D |
| Stream.CrlfStringReads | stream.py:209-217 | returns every byte through the first 0x0D plus one more byte, whatever it is |
| Stream.CrlfMissingLastByte | stream.py:209-217 | when the data ends right after the 0x0D, the unconditional extra `read_u8` raises |
| Stream.ReadCrlfTruncated | stream.py:209-217 | from a non-negative cursor with no 0x0D byte left, the read runs off the end and raises, with the cursor left at the end of the data |
| Stream.ReadVluqString | stream.py:220-222 | succeeds exactly when its length prefix reads, and moves the cursor past the prefix by the decoded length |
| Stream.VluqStringRoundTrip | stream.py:220-222 | `read_vluq_string` after `write_vluq_string(s)` returns s and consumes the prefix plus len(s) bytes |
| NameList.Join | streams.py:125-126 | joining no names gives "", one name gives that name, and latin-1 names join to latin-1 text |
| NameList.Split | streams.py:245 | splitting never yields an empty list and no piece contains a comma |
| NameList.SplitJoin | streams.py:242-245 | splitting the join of a nonempty list of comma-free names gives back the list |
| NameList.JoinSplit | streams.py:242-245 | joining the pieces of any split gives back the text |
| NameList.EmptyListIsOneEmptyName | streams.py:125-126 | `[]` and `['']` join to the same string, and it splits to `['']` |
| NameList.EncodeNameList | streams.py:125-128 | the framing is 4 + len bytes: a u32 character count in the current byte order, then the latin-1 string |
| NameList.WriteNameList | streams.py:125-128 | appends a u32 in the current byte order holding the joined string's length, then bytes that decode to the joined string |
| NameList.ReadNameList | streams.py:242-245 | raises only when the count does; otherwise returns at least one name and moves the cursor by 4 + count |
| NameList.NameListReadsJoin | streams.py:242-245 | reading a written name list yields the split of the join and consumes exactly 4 + len bytes |
| NameList.NameListRoundTrip | streams.py:125-128 | `read_name_list` after `write_name_list(names)` returns names when the list is nonempty and comma-free |
| NameList.NameListWriteRead | streams.py:125-128 | on a stream read to its end, `read_name_list` right after `write_name_list(names)` returns names when the list is nonempty and comma-free |
| NameList.EmptyNameList | streams.py:125-128 | an empty list is written as a zero u32 with no payload and reads back as `['']` |
| NameList.NameListOverRead | streams.py:242-245 | a count past the end still reads the bytes that exist and leaves the cursor past the length, where `is_eof` is false |

## Left out

- `write_f32`, `write_f64`, `read_f32`, `read_f64` (stream.py:80-92, 162-174): IEEE-754 packing through `struct` is floating point, which this model does not cover.
- `read_utf16_string` and `read_nt_utf16_string` (streams.py:230-240) are not modelled. They decode through Python's UTF-16 codec, including its byte-order-mark handling.
- `FileStream` (filestream.py) and `SocketStream` (socketstream.py) are not modelled. They do operating-system file and network I/O.
- The abstract `raise ("Virtual function")` stubs of `Stream` are not modelled. Every call goes to the `ByteStream` overrides.
- The `get_*` accessors are not modelled as separate members. They return a field, which the model reads directly.
- The uN writers (`Stream.WriteU16`, `Stream.WriteU24`, `Stream.WriteU32`, `Stream.WriteU64`, `Encoding.EncodeU16` to `Encoding.EncodeU64`) require 0 <= v < 2^N. For other values the source's `bytearray.append` raises `ValueError`, possibly after part of the field was appended. That path is not modelled.
- `Encoding.EncodeVluq`, `Stream.WriteVluq`: these take a natural number. For a negative value the source's `write_u8` raises `ValueError`. That path is not modelled.
- The string writers (`Stream.WriteString`, `Stream.WriteNtString`, `Stream.WriteVluqString`) require latin-1 text, every character below 256. For other text the source's `str.encode("latin_1")` raises `UnicodeEncodeError` before anything is written. That path is not modelled.
- `NameList.EncodeNameList`, `NameList.WriteNameList` require latin-1 names. For other names the source first writes the 4-byte u32 count, adding 4 to the length (streams.py:127), and only then raises `UnicodeEncodeError` inside `write_string` (streams.py:128). That partly written state is not modelled.
- `NameList.EncodeNameList`, `NameList.WriteNameList` also require the joined string to be shorter than 2^32 characters. For a longer one the source's `write_u32` passes a value above 255 to `write_u8`, which raises `ValueError` part way through the count. That path is not modelled.
- `Buffer.SetData` takes a byte sequence, which stands for the byte-sequence arguments of `bytearray(data)` (bytestream.py:29). The other paths of that constructor are not modelled: an integer `n` stores `n` zero bytes, an iterable with a value outside 0..255 raises `ValueError`, and a `str` or `None` raises `TypeError`, each raise coming before any attribute is assigned.
- `Buffer.WriteU8`, `Buffer.WriteU8Array` take bytes. For `write_u8`, a value outside 0..255 makes `bytearray.append` raise `ValueError` before `length += 1` (bytestream.py:64-65); that path is not modelled. For `write_u8_array`, `self.data += data` accepts only a bytes-like object, and any other argument (even a list of in-range integers) raises `TypeError` before `length` changes (bytestream.py:68-69). A `seq<byte>` stands for exactly the bytes-like arguments, so that path is not modelled either. Also, `get_data` (bytestream.py:36-37) returns the live bytearray, so a caller can change the bytes in place and put `length` out of step with them. The model has no aliasing, so that is not modelled.
- Python's `bytearray.decode("latin_1")` returns `str`, and characters are Dafny `char`. Only code points below 256 arise, so the two agree.

=== FILE: buffer.dfy ===
/** The in-memory backend of bytestream.py: a growable byte array with a logical
    length, an independent read cursor and a stack of saved cursors.

    Reads follow Python's sequence semantics exactly: `read_u8` indexes the
    bytearray, so a negative cursor counts back from the end and only a cursor
    outside `[-len(data), len(data))` raises; `read_u8_array` slices, so it never
    raises and may return fewer bytes than asked for. */
module Buffer {
  import opened Wrappers
  import opened Bytes
  import Endian

  const SEEK_SET: int := 0
  const SEEK_CUR: int := 1
  const SEEK_END: int := 2

  datatype ByteStream = ByteStream(
    data: seq<byte>,             // the bytearray writes append to
    length: int,                 // the logical length `Stream.length`
    readPosition: int,           // the read cursor; writes never consult it
    positionStack: seq<int>,     // cursors saved by `push_read_position`
    order: Endian.EndianState)   // the endian value and its stack, from `Stream`

  /** `ByteStream(endian)`: empty, cursor at 0, which is also end of file. */
  function New(endian: Option<int>): (r: ByteStream)
    ensures r.data == [] && r.length == 0 && r.positionStack == []
    ensures r.order == Endian.Init(endian)
    ensures IsEof(r)
  {
    ByteStream([], 0, 0, [], Endian.Init(endian))
  }

  /** `reset`: empties the data, zeroes the length and the cursor and clears the
      cursor stack; the endian state is kept. */
  function Reset(s: ByteStream): (r: ByteStream)
    ensures r.data == [] && r.length == 0 && r.positionStack == []
    ensures r.order == s.order
    ensures IsEof(r)
  {
    ByteStream([], 0, 0, [], s.order)
  }

  /** `set_data(data, length=None)`: replaces the bytes and rewinds the cursor.
      A truthy `length` (present and nonzero) becomes the logical length, which may
      then differ from the number of stored bytes; the cursor stack is untouched. */
  function SetData(s: ByteStream, d: seq<byte>, length: Option<int>): (r: ByteStream)
    ensures r.data == d && r.readPosition == 0
    ensures r.positionStack == s.positionStack && r.order == s.order
    ensures r.length == (if length.Some? && length.value != 0 then length.value else |d|)
    ensures length.None? ==> r.length == |d|
  {
    s.(data := d, length := if length.Some? && length.value != 0 then length.value else |d|, readPosition := 0)
  }

  /** `set_read_position(offset, whence)`: absolute for SEEK_SET, relative for
      SEEK_CUR, and relative to the logical length for any other `whence`.
      No bound is enforced; only the cursor changes. */
  function SetReadPosition(s: ByteStream, offset: int, whence: int): (r: ByteStream)
    ensures whence == SEEK_SET ==> r.readPosition == offset
    ensures whence == SEEK_CUR ==> r.readPosition == s.readPosition + offset
    ensures whence != SEEK_SET && whence != SEEK_CUR ==> r.readPosition == s.length + offset
    ensures r.(readPosition := s.readPosition) == s
  {
    if whence == SEEK_SET then s.(readPosition := offset)
    else if whence == SEEK_CUR then s.(readPosition := s.readPosition + offset)
    else s.(readPosition := s.length + offset)
  }

  /** The three seek modes name the same cursor: a relative or end-relative seek is
      an absolute seek to the position it computes. */
  lemma SeekModesAgree(s: ByteStream, offset: int, whence: int)
    ensures SetReadPosition(s, offset, SEEK_CUR) == SetReadPosition(s, s.readPosition + offset, SEEK_SET)
    ensures SetReadPosition(s, offset, SEEK_END) == SetReadPosition(s, s.length + offset, SEEK_SET)
    ensures SetReadPosition(SetReadPosition(s, offset, whence), s.readPosition, SEEK_SET) == s
  {
  }

  /** `push_read_position(p)`: returns the old cursor, saves it, and jumps to `p`
      absolutely. */
  function PushReadPosition(s: ByteStream, p: int): (r: (int, ByteStream))
    ensures r.0 == s.readPosition
    ensures r.1.readPosition == p
    ensures r.1.positionStack == s.positionStack + [s.readPosition]
    ensures r.1.data == s.data && r.1.length == s.length && r.1.order == s.order
  {
    var saved := s.readPosition;
    (saved, SetReadPosition(s.(positionStack := s.positionStack + [saved]), p, SEEK_SET))
  }

  /** `pop_read_position`: jumps back to the most recently saved cursor; an empty
      stack raises before anything changes. */
  function PopReadPosition(s: ByteStream): (r: Result<ByteStream>)
    ensures r.Failure? <==> s.positionStack == []
    ensures r.Failure? ==> r.error == PopFromEmpty
    ensures r.Success? ==>
              && r.value.readPosition == s.positionStack[|s.positionStack| - 1]
              && r.value.positionStack + [r.value.readPosition] == s.positionStack
              && r.value.data == s.data && r.value.length == s.length && r.value.order == s.order
  {
    if s.positionStack == [] then Failure(PopFromEmpty)
    else
      var n := |s.positionStack|;
      Success(SetReadPosition(s.(positionStack := s.positionStack[..n - 1]), s.positionStack[n - 1], SEEK_SET))
  }

  /** `is_eof`: the cursor is exactly at the logical length. */
  function IsEof(s: ByteStream): (r: bool)
    ensures r <==> SetReadPosition(s, 0, SEEK_END) == s
  {
    s.readPosition == s.length
  }

  /** `write_u8_array`: appends and grows the logical length; the read side (cursor,
      cursor stack) and the endian state are left alone. */
  function WriteU8Array(s: ByteStream, bs: seq<byte>): (r: ByteStream)
    ensures |r.data| == |s.data| + |bs|
    ensures r.data[..|s.data|] == s.data && r.data[|s.data|..] == bs
    ensures r.length == s.length + |bs|
    ensures r.readPosition == s.readPosition && r.positionStack == s.positionStack
    ensures r.order == s.order
  {
    s.(data := s.data + bs, length := s.length + |bs|)
  }

  /** `r` is `s` after `n` more bytes were written: the stored bytes keep `s`'s as a
      prefix and grow by `n`, the logical length grows by `n`, and the read side and
      the endian state are as they were. */
  predicate Extends(s: ByteStream, r: ByteStream, n: nat) {
    && |r.data| == |s.data| + n
    && r.data[..|s.data|] == s.data
    && r.length == s.length + n
    && r.readPosition == s.readPosition && r.positionStack == s.positionStack
    && r.order == s.order
  }

  /** A write of two consecutive parts leaves each part where it can be sliced back out. */
  lemma WrittenParts(s: ByteStream, a: seq<byte>, b: seq<byte>)
    ensures WriteU8Array(s, a + b).data[|s.data| .. |s.data| + |a|] == a
    ensures WriteU8Array(s, a + b).data[|s.data| + |a| ..] == b
  {
    var d := WriteU8Array(s, a + b).data;
    assert d == s.data + a + b;
  }

  /** `write_u8`: appends one byte and adds 1 to the length; nothing on the read side moves. */
  function WriteU8(s: ByteStream, b: byte): (r: ByteStream)
    ensures r.data == s.data + [b] && r.length == s.length + 1
    ensures r.readPosition == s.readPosition && r.positionStack == s.positionStack
    ensures r.order == s.order
  {
    s.(data := s.data + [b], length := s.length + 1)
  }

  /** `read_u8`: the byte under the cursor (Python indexing) and the cursor one
      further; out of range raises with the stream unchanged. The bound is the
      number of stored bytes, not the logical length. */
  function ReadU8(s: ByteStream): (r: Outcome<byte, ByteStream>)
    ensures r.Ok? <==> -|s.data| <= s.readPosition < |s.data|
    ensures r.Ok? ==> r.state == s.(readPosition := s.readPosition + 1)
    ensures r.Raised? ==> r.state == s && r.error == IndexOutOfRange
    ensures 0 <= s.readPosition < |s.data| ==> r.value == s.data[s.readPosition]
    ensures r.Ok? ==> r.value == s.data[if s.readPosition < 0 then |s.data| + s.readPosition else s.readPosition]
  {
    match PyIndex(s.data, s.readPosition)
    case None => Raised(IndexOutOfRange, s)
    case Some(b) => Ok(b, s.(readPosition := s.readPosition + 1))
  }

  /** `read_u8_array(n)`: the slice `data[pos:pos+n]`, which is short near the end
      and never raises, and the cursor always moved by `n`. */
  function ReadU8Array(s: ByteStream, n: int): (r: (seq<byte>, ByteStream))
    ensures r.1 == s.(readPosition := s.readPosition + n)
    ensures 0 <= s.readPosition <= |s.data| && 0 <= n ==>
              r.0 == s.data[s.readPosition .. if s.readPosition + n <= |s.data| then s.readPosition + n else |s.data|]
    ensures |s.data| <= s.readPosition ==> r.0 == []
  {
    (PySlice(s.data, s.readPosition, s.readPosition + n), s.(readPosition := s.readPosition + n))
  }

  // ------------------------------------------------------------------ reading a window

  /** The cursor moved forward by `n`, everything else as it was. */
  function Advance(s: ByteStream, n: int): (r: ByteStream) {
    s.(readPosition := s.readPosition + n)
  }

  /** The next `|bs|` stored bytes from a non-negative cursor are `bs`. */
  predicate Upcoming(s: ByteStream, bs: seq<byte>) {
    && 0 <= s.readPosition
    && s.readPosition + |bs| <= |s.data|
    && s.data[s.readPosition .. s.readPosition + |bs|] == bs
  }

  /** `n` successive `read_u8` calls, as a caller reading bytes one at a time makes
      them: the first failing call raises with the cursor where it stopped. */
  function ReadU8s(s: ByteStream, n: nat): (r: Outcome<seq<byte>, ByteStream>)
    ensures r.Ok? ==> |r.value| == n && r.state == Advance(s, n)
    ensures 0 <= s.readPosition && s.readPosition + n <= |s.data| ==>
              r == Ok(s.data[s.readPosition .. s.readPosition + n], Advance(s, n))
    ensures 0 < n && 0 <= s.readPosition && |s.data| < s.readPosition + n ==> r.Raised?
    ensures r.Raised? ==> r.error == IndexOutOfRange
    ensures r.Raised? ==> s.readPosition <= r.state.readPosition < s.readPosition + n
                          && r.state == Advance(s, r.state.readPosition - s.readPosition)
    decreases n
  {
    if n == 0 then
      assert Advance(s, 0) == s;
      assert 0 <= s.readPosition <= |s.data| ==> s.data[s.readPosition .. s.readPosition] == [];
      Ok([], s)
    else
      match ReadU8(s)
      case Raised(e, s1) => Raised(e, s1)
      case Ok(b, s1) =>
        match ReadU8s(s1, n - 1)
        case Raised(e, s2) => Raised(e, s2)
        case Ok(rest, s2) =>
          assert 0 <= s.readPosition && s.readPosition + n <= |s.data| ==>
            s.data[s.readPosition .. s.readPosition + n]
            == [s.data[s.readPosition]] + s.data[s.readPosition + 1 .. s.readPosition + n];
          Ok([b] + rest, s2)
  }

  lemma UpcomingAppend(s: ByteStream, a: seq<byte>, b: seq<byte>)
    ensures Upcoming(s, a + b) <==> Upcoming(s, a) && Upcoming(Advance(s, |a|), b)
  {
    if Upcoming(s, a) && Upcoming(Advance(s, |a|), b) {
      var p := s.readPosition;
      assert s.data[p .. p + |a| + |b|] == s.data[p .. p + |a|] + s.data[p + |a| .. p + |a| + |b|];
    }
    if Upcoming(s, a + b) {
      var p := s.readPosition;
      assert s.data[p .. p + |a|] == (a + b)[..|a|];
      assert s.data[p + |a| .. p + |a| + |b|] == (a + b)[|a|..];
    }
  }

  /** Upcoming bytes split at any point into two upcoming runs. */
  lemma UpcomingSplit(s: ByteStream, bs: seq<byte>, k: nat)
    requires Upcoming(s, bs) && k <= |bs|
    ensures Upcoming(s, bs[..k]) && Upcoming(Advance(s, k), bs[k..])
  {
    assert bs == bs[..k] + bs[k..];
    UpcomingAppend(s, bs[..k], bs[k..]);
  }

  /** The first upcoming byte is what `read_u8` returns, and the rest are upcoming after it. */
  lemma UpcomingHead(s: ByteStream, bs: seq<byte>)
    requires |bs| >= 1 && Upcoming(s, bs)
    ensures ReadU8(s) == Ok(bs[0], Advance(s, 1))
    ensures Upcoming(Advance(s, 1), bs[1..])
  {
    var p := s.readPosition;
    assert s.data[p] == s.data[p .. p + |bs|][0];
    assert s.data[p + 1 .. p + |bs|] == s.data[p .. p + |bs|][1..];
  }

  /** Reading the upcoming bytes one `read_u8` at a time yields exactly them and
      advances the cursor by their count. */
  lemma ReadU8sUpcoming(s: ByteStream, bs: seq<byte>)
    requires Upcoming(s, bs)
    ensures ReadU8s(s, |bs|) == Ok(bs, Advance(s, |bs|))
  {
  }

  // ------------------------------------------------------------------ properties

  /** A run of `write_u8` calls is one `write_u8_array` of the same bytes, so a
      writer of `Stream` is modelled by the byte string it appends. */
  lemma WritesCompose(s: ByteStream, b: byte, xs: seq<byte>, ys: seq<byte>)
    ensures WriteU8(s, b) == WriteU8Array(s, [b])
    ensures WriteU8Array(WriteU8Array(s, xs), ys) == WriteU8Array(s, xs + ys)
  {
    assert s.data + xs + ys == s.data + (xs + ys);
  }

  /** Writing while mid-read: appended bytes join the end of what is still unread,
      and the bytes already pending are read back unchanged. */
  lemma WriteExtendsUnread(s: ByteStream, bs: seq<byte>)
    requires 0 <= s.readPosition <= |s.data|
    ensures Upcoming(WriteU8Array(s, bs), s.data[s.readPosition..] + bs)
  {
    var w := WriteU8Array(s, bs);
    assert w.data == s.data + bs;
    assert w.data[s.readPosition..] == s.data[s.readPosition..] + bs;
  }

  /** With the logical length equal to the stored count and a cursor in range,
      `is_eof` holds exactly when the next `read_u8` raises. */
  lemma EofIffReadFails(s: ByteStream)
    requires s.length == |s.data| && 0 <= s.readPosition <= s.length
    ensures IsEof(s) <==> ReadU8(s).Raised?
  {
  }

  /** After `set_data(d)`, reading `k` bytes one at a time gives `d[:k]`; `is_eof`
      is false before all `len(d)` bytes are read and true exactly then, and only
      then does the next `read_u8` raise. */
  lemma {:induction false} ReadingToEof(s: ByteStream, d: seq<byte>, k: nat)
    requires k <= |d|
    ensures ReadU8s(SetData(s, d, None), k).Ok?
    ensures ReadU8s(SetData(s, d, None), k).value == d[..k]
    ensures IsEof(ReadU8s(SetData(s, d, None), k).state) <==> k == |d|
    ensures ReadU8(ReadU8s(SetData(s, d, None), k).state).Raised? <==> k == |d|
  {
    var t := SetData(s, d, None);
    assert Upcoming(t, d[..k]);
    ReadU8sUpcoming(t, d[..k]);
    EofIffReadFails(Advance(t, k));
  }

  /** When `set_data` gave a logical length beyond the stored bytes, an over-read
      that reaches exactly that length returns only the bytes that exist and
      leaves `is_eof` true: `set_data(b"\x01\x02\x03", 5)` then `read_u8_array(5)`
      returns three bytes and ends at end of file. */
  lemma OverReadToLogicalLength(s: ByteStream, n: int)
    requires 0 <= s.readPosition <= |s.data| < s.readPosition + n == s.length
    ensures ReadU8Array(s, n).0 == s.data[s.readPosition..]
    ensures |ReadU8Array(s, n).0| < n && IsEof(ReadU8Array(s, n).1)
    ensures var t := SetData(New(None), [1, 2, 3], Some(5));
            ReadU8Array(t, 5).0 == [1, 2, 3] && IsEof(ReadU8Array(t, 5).1)
  {
    var t := SetData(New(None), [1, 2, 3], Some(5));
    assert t.data[0..] == [1, 2, 3];
  }

  /** An over-read by `read_u8_array` returns only the bytes that exist, yet moves
      the cursor past the length, where `is_eof` is false and `read_u8` raises. */
  lemma OverReadPassesEof(s: ByteStream, n: int)
    requires s.length == |s.data|
    requires 0 <= s.readPosition <= |s.data| < s.readPosition + n
    ensures ReadU8Array(s, n).0 == s.data[s.readPosition..]
    ensures |ReadU8Array(s, n).0| < n
    ensures ReadU8Array(s, n).1.readPosition > ReadU8Array(s, n).1.length
    ensures !IsEof(ReadU8Array(s, n).1)
    ensures ReadU8(ReadU8Array(s, n).1).Raised?
  {
  }

  /** A pop undoes the push just before it: cursor and stack are exactly restored. */
  lemma PopPositionUndoesPush(s: ByteStream, p: int)
    ensures PopReadPosition(PushReadPosition(s, p).1) == Success(s)
  {
    assert (s.positionStack + [s.readPosition])[..|s.positionStack|] == s.positionStack;
  }

  /** The stream after pushing each cursor of `ps` in order. */
  function PushPositions(s: ByteStream, ps: seq<int>): (r: ByteStream)
    ensures |r.positionStack| == |s.positionStack| + |ps|
    ensures r.data == s.data && r.length == s.length
  {
    if ps == [] then s
    else PushReadPosition(PushPositions(s, ps[..|ps| - 1]), ps[|ps| - 1]).1
  }

  /** `n` successive pops; the first that meets an empty stack raises. */
  function PopPositions(s: ByteStream, n: nat): (r: Result<ByteStream>)
    decreases n
  {
    if n == 0 then Success(s)
    else
      match PopReadPosition(s)
      case Failure(e) => Failure(e)
      case Success(s') => PopPositions(s', n - 1)
  }

  /** Nested pushes are undone in strict LIFO order, restoring the exact cursor
      and stack from before the first push. */
  lemma {:induction false} PopsRestorePositions(s: ByteStream, ps: seq<int>)
    ensures PopPositions(PushPositions(s, ps), |ps|) == Success(s)
    decreases |ps|
  {
    if ps != [] {
      var init := ps[..|ps| - 1];
      PopPositionUndoesPush(PushPositions(s, init), ps[|ps| - 1]);
      PopsRestorePositions(s, init);
    }
  }

  /** Popping more cursors than were saved raises. */
  lemma {:induction false} PopPositionsPastDepthFails(s: ByteStream, n: nat)
    requires n > |s.positionStack|
    ensures PopPositions(s, n).Failure?
    decreases n
  {
    if s.positionStack != [] {
      PopPositionsPastDepthFails(PopReadPosition(s).value, n - 1);
    }
  }
}

=== FILE: bytes.dfy ===
/** Bytes, little-endian values, and the parts of Python's sequence semantics the
    streams rely on: negative indexing, slice clamping and the latin-1 text mapping. */
module Bytes {
  import opened Wrappers

  /** A value a Python `bytearray` element can hold. */
  type byte = b: int | 0 <= b < 0x100

  function Pow(base: nat, n: nat): (r: nat)
    ensures base > 0 ==> r > 0
  {
    if n == 0 then 1 else base * Pow(base, n - 1)
  }

  lemma {:induction false} PowAdd(base: nat, m: nat, n: nat)
    ensures Pow(base, m + n) == Pow(base, m) * Pow(base, n)
    decreases m
  {
    if m > 0 {
      PowAdd(base, m - 1, n);
      Associate(base, Pow(base, m - 1), Pow(base, n));
    }
  }

  lemma Associate(x: int, y: int, z: int)
    ensures x * (y * z) == (x * y) * z
  {
  }

  /** The unsigned value of `bs` read least-significant byte first. */
  function LeValue(bs: seq<byte>): (r: nat)
    ensures r < Pow(0x100, |bs|)
  {
    if bs == [] then 0
    else
      var rest := LeValue(bs[1..]);
      assert rest + 1 <= Pow(0x100, |bs| - 1);
      assert 0x100 * (rest + 1) <= 0x100 * Pow(0x100, |bs| - 1);
      bs[0] + 0x100 * rest
  }

  /** Appending bytes adds their value scaled by the length already present. */
  lemma {:induction false} LeValueAppend(a: seq<byte>, b: seq<byte>)
    ensures LeValue(a + b) == LeValue(a) + Pow(0x100, |a|) * LeValue(b)
    decreases |a|
  {
    if a != [] {
      assert (a + b)[1..] == a[1..] + b;
      LeValueAppend(a[1..], b);
      var x, p, y := LeValue(a[1..]), Pow(0x100, |a| - 1), LeValue(b);
      assert LeValue(a + b) == a[0] + 0x100 * (x + p * y);
      assert Pow(0x100, |a|) == 0x100 * p;
      Distribute(x, p, y);
    } else {
      assert a + b == b;
    }
  }

  lemma Distribute(x: int, p: int, y: int)
    ensures 0x100 * (x + p * y) == 0x100 * x + (0x100 * p) * y
  {
  }

  function Reverse<T>(s: seq<T>): (r: seq<T>)
    ensures |r| == |s|
    ensures forall i :: 0 <= i < |s| ==> r[i] == s[|s| - 1 - i]
  {
    if s == [] then [] else Reverse(s[1..]) + [s[0]]
  }

  lemma ReverseAppend<T>(a: seq<T>, b: seq<T>)
    ensures Reverse(a + b) == Reverse(b) + Reverse(a)
  {
    assert forall i :: 0 <= i < |a| + |b| ==> Reverse(a + b)[i] == (Reverse(b) + Reverse(a))[i];
  }

  lemma ReverseReverse<T>(s: seq<T>)
    ensures Reverse(Reverse(s)) == s
  {
  }

  /** Python's `s[i]`: a negative index counts back from the end; anything outside
      `[-len(s), len(s))` raises. */
  function PyIndex<T>(s: seq<T>, i: int): (r: Option<T>)
    ensures r.Some? <==> -|s| <= i < |s|
    ensures 0 <= i < |s| ==> r == Some(s[i])
    ensures -|s| <= i < 0 ==> r == Some(s[|s| + i])
  {
    if 0 <= i < |s| then Some(s[i])
    else if -|s| <= i < 0 then Some(s[|s| + i])
    else None
  }

  /** How Python normalises one bound of a slice `s[i:j]` over a sequence of length `len`. */
  function SliceBound(len: nat, i: int): (r: nat)
    ensures r <= len
    ensures 0 <= i <= len ==> r == i
    ensures len < i ==> r == len
    ensures -(len as int) <= i < 0 ==> r as int == len as int + i
    ensures i < -(len as int) ==> r == 0
  {
    if i < 0 then (if len + i < 0 then 0 else len + i)
    else if i > len then len
    else i
  }

  /** Python's `s[i:j]`: never raises; out-of-range bounds are clamped and a slice
      whose end precedes its start is empty. */
  function PySlice<T>(s: seq<T>, i: int, j: int): (r: seq<T>)
    ensures |r| <= |s|
    ensures var a, b := SliceBound(|s|, i), SliceBound(|s|, j);
            && |r| == (if a <= b then b - a else 0)
            && forall k :: 0 <= k < |r| ==> r[k] == s[a + k]
    ensures 0 <= i <= |s| && i <= j ==> r == s[i..if j <= |s| then j else |s|]
    ensures |s| <= i ==> r == []
    ensures 0 <= j <= i ==> r == []
  {
    var a, b := SliceBound(|s|, i), SliceBound(|s|, j);
    if a <= b then s[a..b] else []
  }

  /** A negative bound counts from the end even when the other bound is not
      negative: a non-negative start with a negative stop ends `|s| + j` in, and a
      negative start with a stop past the end runs to the end. So `s[2:-1]` of five
      elements is not empty although -1 < 2. */
  lemma SliceMixedSigns<T>(s: seq<T>, i: int, j: int)
    ensures 0 <= i <= |s| && -|s| <= j < 0 ==>
              PySlice(s, i, j) == (if i <= |s| + j then s[i .. |s| + j] else [])
    ensures -|s| <= i < 0 && |s| <= j ==> PySlice(s, i, j) == s[|s| + i ..]
    ensures PySlice([0, 1, 2, 3, 4], 2, -1) == [2, 3]
    ensures PySlice([0, 1, 2, 3, 4], -2, 10) == [3, 4]
  {
  }

  /** Text that latin-1 can encode: every code point below 256. */
  predicate IsLatin1(s: string) {
    forall i :: 0 <= i < |s| ==> s[i] as int < 0x100
  }

  /** `str.encode("latin_1")` on encodable text: one byte per character, same value. */
  function Latin1Encode(s: string): (r: seq<byte>)
    requires IsLatin1(s)
    ensures |r| == |s|
    ensures forall i :: 0 <= i < |s| ==> r[i] == s[i] as int
  {
    seq(|s|, i requires 0 <= i < |s| => s[i] as int as byte)
  }

  /** `bytes.decode("latin_1")`: never fails, one character per byte. */
  function Latin1Decode(b: seq<byte>): (r: string)
    ensures |r| == |b|
    ensures IsLatin1(r)
    ensures forall i :: 0 <= i < |b| ==> r[i] as int == b[i]
  {
    seq(|b|, i requires 0 <= i < |b| => b[i] as char)
  }

  lemma Latin1DecodeEncode(s: string)
    requires IsLatin1(s)
    ensures Latin1Decode(Latin1Encode(s)) == s
  {
    var d := Latin1Decode(Latin1Encode(s));
    assert forall i :: 0 <= i < |s| ==> d[i] as int == s[i] as int;
  }

  lemma Latin1EncodeDecode(b: seq<byte>)
    ensures Latin1Encode(Latin1Decode(b)) == b
  {
  }
}

=== FILE: encoding.dfy ===
/** The write half of the codec in stream.py as pure functions to bytes.

    Every writer of `Stream` reaches its backend only through `write_u8` and
    `write_u8_array`, which append; so each writer is modelled by the byte string
    it appends. On non-negative operands Python's `v & (2^k - 1)`, `v >> k` and
    `x << k` are `v % 2^k`, `v / 2^k` and `x * 2^k`, which is how they appear here. */
module Encoding {
  import opened Bytes
  import opened Endian

  /** The value a fixed-width field holds when its bytes are taken in `endian` order. */
  function Word(endian: int, bs: seq<byte>): (r: nat) {
    if IsLittle(endian) then LeValue(bs) else LeValue(Reverse(bs))
  }

  /** A field made of two consecutive parts: little-endian puts the first part
      low, big-endian puts it high. */
  lemma WordAppend(endian: int, a: seq<byte>, b: seq<byte>)
    ensures IsLittle(endian) ==> Word(endian, a + b) == Word(endian, a) + Pow(0x100, |a|) * Word(endian, b)
    ensures !IsLittle(endian) ==> Word(endian, a + b) == Word(endian, a) * Pow(0x100, |b|) + Word(endian, b)
  {
    if IsLittle(endian) {
      LeValueAppend(a, b);
    } else {
      ReversedAppend(a, b);
    }
  }

  lemma ReversedAppend(a: seq<byte>, b: seq<byte>)
    ensures LeValue(Reverse(a + b)) == LeValue(Reverse(a)) * Pow(0x100, |b|) + LeValue(Reverse(b))
  {
    var ra, rb := Reverse(a), Reverse(b);
    ReverseAppend(a, b);
    LeValueAppend(rb, ra);
    SwapProduct(LeValue(ra), LeValue(rb), Pow(0x100, |rb|));
  }

  lemma SwapProduct(x: int, y: int, p: int)
    ensures y + p * x == x * p + y
  {
  }

  // ---------------------------------------------------------------- bool

  /** `write_bool`: a single byte, 1 for true and 0 for false. */
  function EncodeBool(b: bool): (r: seq<byte>)
    ensures |r| == 1
    ensures r[0] <= 1 && (r[0] == 0 <==> !b)
  {
    [if b then 1 else 0]
  }

  // ---------------------------------------------------------------- fixed width

  /** `write_u16`: low byte first when little-endian, high byte first otherwise. */
  function EncodeU16(endian: int, v: int): (r: seq<byte>)
    requires 0 <= v < 0x1_0000
    ensures |r| == 2
    ensures Word(endian, r) == v
  {
    PairValue(v % 0x100, v / 0x100);
    if IsLittle(endian) then [v % 0x100, v / 0x100] else [v / 0x100, v % 0x100]
  }

  /** `write_u24`: three single-byte writes in endian order. */
  function EncodeU24(endian: int, v: int): (r: seq<byte>)
    requires 0 <= v < 0x100_0000
    ensures |r| == 3
    ensures Word(endian, r) == v
  {
    TripleValue(v % 0x100, (v / 0x100) % 0x100, v / 0x1_0000);
    if IsLittle(endian) then [v % 0x100, (v / 0x100) % 0x100, v / 0x1_0000]
    else [v / 0x1_0000, (v / 0x100) % 0x100, v % 0x100]
  }

  /** `write_u32`: two `write_u16` calls, the low half first when little-endian. */
  function EncodeU32(endian: int, v: int): (r: seq<byte>)
    requires 0 <= v < 0x1_0000_0000
    ensures |r| == 4
    ensures Word(endian, r) == v
  {
    var lo, hi := v % 0x1_0000, v / 0x1_0000;
    var (first, second) := if IsLittle(endian) then (lo, hi) else (hi, lo);
    var a, b := EncodeU16(endian, first), EncodeU16(endian, second);
    WordAppend(endian, a, b);
    assert Pow(0x100, 2) == 0x1_0000;
    a + b
  }

  /** `write_u64`: two `write_u32` calls, the low half first when little-endian. */
  function EncodeU64(endian: int, v: int): (r: seq<byte>)
    requires 0 <= v < 0x1_0000_0000_0000_0000
    ensures |r| == 8
    ensures Word(endian, r) == v
  {
    var lo, hi := v % 0x1_0000_0000, v / 0x1_0000_0000;
    HalfSplit(v, 0x1_0000_0000);
    var (first, second) := if IsLittle(endian) then (lo, hi) else (hi, lo);
    var a, b := EncodeU32(endian, first), EncodeU32(endian, second);
    WordAppend(endian, a, b);
    assert Pow(0x100, 4) == 0x1_0000_0000;
    a + b
  }

  /** A value below `m * m` is a low and a high digit in base `m`. */
  lemma HalfSplit(v: int, m: int)
    requires 0 < m && 0 <= v < m * m
    ensures 0 <= v / m < m && v == v % m + m * (v / m)
  {
  }

  /** Two bytes in either order: the low one first is little-endian. */
  lemma PairValue(lo: byte, hi: byte)
    ensures LeValue([lo, hi]) == lo as int + 0x100 * hi as int
    ensures Reverse([hi, lo]) == [lo, hi]
  {
    assert [lo, hi][1..] == [hi];
    assert [hi][1..] == [];
  }

  /** Three bytes in either order: the low one first is little-endian. */
  lemma TripleValue(lo: byte, mid: byte, hi: byte)
    ensures LeValue([lo, mid, hi]) == lo as int + 0x100 * (mid as int + 0x100 * hi as int)
    ensures Reverse([hi, mid, lo]) == [lo, mid, hi]
  {
    assert [lo, mid, hi][1..] == [mid, hi];
    PairValue(mid, hi);
  }

  /** `u16`: the bytes hold `v` in `endian` order, and the big-endian bytes are the
      little-endian ones reversed. */
  lemma U16Layout(endian: int, v: int)
    requires 0 <= v < 0x1_0000
    ensures Word(endian, EncodeU16(endian, v)) == v
    ensures !IsLittle(endian) ==> EncodeU16(endian, v) == Reverse(EncodeU16(LITTLE_ENDIAN, v))
  {
    var le := EncodeU16(LITTLE_ENDIAN, v);
    assert LeValue(le) == le[0] + 0x100 * LeValue(le[1..]);
    assert LeValue(le[1..]) == le[1];
    if !IsLittle(endian) {
      assert EncodeU16(endian, v) == Reverse(le);
      ReverseReverse(le);
    }
  }

  /** `u24`: as for `u16`, over three bytes. */
  lemma U24Layout(endian: int, v: int)
    requires 0 <= v < 0x100_0000
    ensures Word(endian, EncodeU24(endian, v)) == v
    ensures !IsLittle(endian) ==> EncodeU24(endian, v) == Reverse(EncodeU24(LITTLE_ENDIAN, v))
  {
    var le := EncodeU24(LITTLE_ENDIAN, v);
    assert LeValue(le[2..]) == le[2];
    assert LeValue(le[1..]) == le[1] as int + 0x100 * (le[2] as int);
    assert LeValue(le) == le[0] as int + 0x100 * (le[1] as int + 0x100 * (le[2] as int));
    if !IsLittle(endian) {
      assert EncodeU24(endian, v) == Reverse(le);
      ReverseReverse(le);
    }
  }

  /** `u32`: the two `u16` halves compose into one four-byte field in `endian`
      order; big-endian is the exact reverse of little-endian. */
  lemma U32Layout(endian: int, v: int)
    requires 0 <= v < 0x1_0000_0000
    ensures Word(endian, EncodeU32(endian, v)) == v
    ensures !IsLittle(endian) ==> EncodeU32(endian, v) == Reverse(EncodeU32(LITTLE_ENDIAN, v))
  {
    var lo, hi := v % 0x1_0000, v / 0x1_0000;
    var a, b := EncodeU16(LITTLE_ENDIAN, lo), EncodeU16(LITTLE_ENDIAN, hi);
    U16Layout(LITTLE_ENDIAN, lo);
    U16Layout(LITTLE_ENDIAN, hi);
    LeValueAppend(a, b);
    assert Pow(0x100, 2) == 0x1_0000;
    assert LeValue(a + b) == v;
    if !IsLittle(endian) {
      U16Layout(endian, lo);
      U16Layout(endian, hi);
      ReverseAppend(a, b);
      assert EncodeU32(endian, v) == Reverse(a + b);
      ReverseReverse(a + b);
    }
  }

  /** `u64`: the two `u32` halves compose into one eight-byte field. */
  lemma U64Layout(endian: int, v: int)
    requires 0 <= v < 0x1_0000_0000_0000_0000
    ensures Word(endian, EncodeU64(endian, v)) == v
    ensures !IsLittle(endian) ==> EncodeU64(endian, v) == Reverse(EncodeU64(LITTLE_ENDIAN, v))
  {
    var lo, hi := v % 0x1_0000_0000, v / 0x1_0000_0000;
    var a, b := EncodeU32(LITTLE_ENDIAN, lo), EncodeU32(LITTLE_ENDIAN, hi);
    U32Layout(LITTLE_ENDIAN, lo);
    U32Layout(LITTLE_ENDIAN, hi);
    LeValueAppend(a, b);
    assert Pow(0x100, 4) == 0x1_0000_0000;
    assert LeValue(a + b) == v;
    if !IsLittle(endian) {
      U32Layout(endian, lo);
      U32Layout(endian, hi);
      ReverseAppend(a, b);
      assert EncodeU64(endian, v) == Reverse(a + b);
      ReverseReverse(a + b);
    }
  }

  // ---------------------------------------------------------------- VLUQ

  /** `write_vluq`: seven bits at a time, least-significant group first, with
      0x80 added to every byte that is not the last. */
  function EncodeVluq(v: nat): (r: seq<byte>)
    ensures |r| >= 1
    decreases v
  {
    if v > 0x7f then [v % 0x80 + 0x80] + EncodeVluq(v / 0x80) else [v]
  }

  /** Continuation-bit framing: the top bit is set on every byte but the last. */
  predicate IsVluq(bs: seq<byte>) {
    && |bs| >= 1
    && bs[|bs| - 1] < 0x80
    && forall i :: 0 <= i < |bs| - 1 ==> bs[i] >= 0x80
  }

  /** A framing with no redundant trailing zero group (the same bytes as
      unsigned LEB128 of section 7.6 of DWARF version 4). */
  predicate IsMinimalVluq(bs: seq<byte>) {
    IsVluq(bs) && (|bs| == 1 || bs[|bs| - 1] != 0)
  }

  /** The value of a VLUQ: the low seven bits of byte i weigh 128^i. */
  function VluqValue(bs: seq<byte>): (r: nat) {
    if bs == [] then 0 else bs[0] % 0x80 + 0x80 * VluqValue(bs[1..])
  }

  /** A one-byte VLUQ is worth its byte. */
  lemma VluqSingle(bs: seq<byte>)
    requires IsVluq(bs) && |bs| == 1
    ensures VluqValue(bs) == bs[0] && bs[0] <= 0x7f
  {
    assert bs[1..] == [];
  }

  /** Past the first byte of a multi-byte VLUQ is a VLUQ again, worth the rest
      of the value. */
  lemma VluqTail(bs: seq<byte>)
    requires IsVluq(bs) && |bs| > 1
    ensures bs[0] >= 0x80 && IsVluq(bs[1..])
    ensures VluqValue(bs) == bs[0] % 0x80 + 0x80 * VluqValue(bs[1..])
  {
    var rest := bs[1..];
    assert forall i :: 0 <= i < |rest| - 1 ==> rest[i] == bs[i + 1];
  }

  /** A VLUQ encoding is well framed, has no redundant trailing group, and holds
      exactly `v`. */
  lemma {:induction false} VluqEncodingLayout(v: nat)
    ensures IsMinimalVluq(EncodeVluq(v))
    ensures VluqValue(EncodeVluq(v)) == v
    decreases v
  {
    if v > 0x7f {
      var rest := EncodeVluq(v / 0x80);
      EncodeVluqStep(v);
      VluqEncodingLayout(v / 0x80);
      assert rest[|rest| - 1] != 0 by {
        if |rest| == 1 {
          assert v / 0x80 <= 0x7f && rest == [v / 0x80];
        }
      }
      VluqCons(v % 0x80 + 0x80, rest);
    } else {
      assert EncodeVluq(v)[1..] == [];
    }
  }

  /** A byte with the top bit set in front of a VLUQ is a VLUQ one group longer. */
  lemma VluqCons(b: byte, rest: seq<byte>)
    requires b >= 0x80 && IsVluq(rest)
    ensures IsVluq([b] + rest)
    ensures VluqValue([b] + rest) == b % 0x80 + 0x80 * VluqValue(rest)
    ensures rest[|rest| - 1] != 0 ==> IsMinimalVluq([b] + rest)
  {
    var bs := [b] + rest;
    assert bs[1..] == rest;
    assert forall i :: 1 <= i < |bs| ==> bs[i] == rest[i - 1];
  }

  /** The encoding uses the fewest seven-bit groups that can hold `v`:
      max(1, ceil(bitlen(v) / 7)) bytes. */
  lemma {:induction false} VluqEncodingLength(v: nat)
    ensures v < Pow(0x80, |EncodeVluq(v)|)
    ensures |EncodeVluq(v)| == 1 || Pow(0x80, |EncodeVluq(v)| - 1) <= v
    decreases v
  {
    if v > 0x7f {
      var n := |EncodeVluq(v / 0x80)|;
      VluqEncodingLength(v / 0x80);
      assert |EncodeVluq(v)| == n + 1;
      assert v < 0x80 * Pow(0x80, n);
      if n > 1 {
        assert Pow(0x80, n - 1) <= v / 0x80;
        assert Pow(0x80, n) == 0x80 * Pow(0x80, n - 1);
      }
    }
  }

  /** A well-framed VLUQ whose last byte is nonzero has a nonzero value. */
  lemma {:induction false} VluqValuePositive(bs: seq<byte>)
    requires IsVluq(bs) && bs[|bs| - 1] != 0
    ensures VluqValue(bs) > 0
    decreases |bs|
  {
    if |bs| > 1 {
      VluqValuePositive(bs[1..]);
    }
  }

  /** Conversely, every minimal VLUQ is the encoding of its own value, so the
      encoder is a bijection between naturals and minimal VLUQs. */
  lemma {:induction false} VluqCanonical(bs: seq<byte>)
    requires IsMinimalVluq(bs)
    ensures EncodeVluq(VluqValue(bs)) == bs
    decreases |bs|
  {
    if |bs| == 1 {
      VluqSingle(bs);
    } else {
      var rest := bs[1..];
      VluqTail(bs);
      assert IsMinimalVluq(rest);
      VluqValuePositive(rest);
      VluqCanonical(rest);
      var low, w := bs[0] - 0x80, VluqValue(rest);
      SevenBitSplit(low, w);
      EncodeVluqStep(low + 0x80 * w);
      assert bs == [bs[0]] + rest;
    }
  }

  /** A value above 0x7f is one continued group followed by the encoding of the rest. */
  lemma EncodeVluqStep(v: nat)
    requires v > 0x7f
    ensures EncodeVluq(v) == [v % 0x80 + 0x80] + EncodeVluq(v / 0x80)
  {
  }

  lemma SevenBitSplit(low: int, w: int)
    requires 0 <= low < 0x80 && 0 <= w
    ensures (low + 0x80 * w) % 0x80 == low && (low + 0x80 * w) / 0x80 == w
  {
  }

  /** The loop `write_vluq` runs, one appended byte per iteration. */
  method WriteVluqLoop(v: nat) returns (out: seq<byte>)
    ensures out == EncodeVluq(v)
    ensures IsMinimalVluq(out) && VluqValue(out) == v
  {
    var value := v;
    out := [];
    while value > 0x7f
      invariant out + EncodeVluq(value) == EncodeVluq(v)
      decreases value
    {
      EncodeVluqStep(value);
      out := out + [value % 0x80 + 0x80];
      value := value / 0x80;
    }
    out := out + [value];
    VluqEncodingLayout(v);
  }

  // ---------------------------------------------------------------- VLSQ

  /** `write_vlsq`: the magnitude shifted left one bit, the sign in bit 0, as a VLUQ. */
  function EncodeVlsq(v: int): (r: seq<byte>)
    ensures IsMinimalVluq(r)
  {
    var sign := if v < 0 then 1 else 0;
    var magnitude := if v < 0 then -v else v;
    VluqEncodingLayout(magnitude * 2 + sign);
    EncodeVluq(magnitude * 2 + sign)
  }

  /** The signed value `read_vlsq` derives from an unsigned quantity: bit 0 is the
      sign, the rest the magnitude. */
  function VlsqOf(u: nat): (r: int) {
    if u % 2 == 1 then -(u / 2) else u / 2
  }

  /** Decoding the VLUQ carried by a VLSQ encoding gives back `v`, for every integer. */
  lemma VlsqRoundTrip(v: int)
    ensures VlsqOf(VluqValue(EncodeVlsq(v))) == v
  {
    var sign := if v < 0 then 1 else 0;
    var magnitude := if v < 0 then -v else v;
    VluqEncodingLayout(magnitude * 2 + sign);
  }

  /** Zero has a single encoding, the byte 0x00; the unsigned quantities 0 and 1
      both decode to zero (1 is the "negative zero" the encoder never produces). */
  lemma VlsqZero()
    ensures EncodeVlsq(0) == [0]
    ensures VlsqOf(0) == 0 && VlsqOf(1) == 0
  {
  }

  // ---------------------------------------------------------------- strings

  /** `write_nt_string`: the latin-1 bytes followed by one zero byte. */
  function EncodeNtString(s: string): (r: seq<byte>)
    requires IsLatin1(s)
    ensures |r| == |s| + 1 && r[|s|] == 0
    ensures r[..|s|] == Latin1Encode(s)
  {
    Latin1Encode(s) + [0]
  }

  /** `write_vluq_string`: the byte count as a VLUQ, then the latin-1 bytes. */
  function EncodeVluqString(s: string): (r: seq<byte>)
    requires IsLatin1(s)
    ensures |r| == |EncodeVluq(|s|)| + |s|
    ensures r[..|EncodeVluq(|s|)|] == EncodeVluq(|s|)
    ensures r[|EncodeVluq(|s|)|..] == Latin1Encode(s)
  {
    EncodeVluq(|s|) + Latin1Encode(s)
  }
}

=== FILE: endian.dfy ===
/** The byte-order state every stream carries (stream.py, `Stream`): the current
    endian value and the stack that `push_endian` / `pop_endian` maintain.

    The source stores whatever value it is given and its codec only ever asks
    whether the value equals `LITTLE_ENDIAN`; any other value behaves as
    big-endian. The model keeps the value as an `int` for the same reason. */
module Endian {
  import opened Wrappers

  const LITTLE_ENDIAN: int := 0
  const BIG_ENDIAN: int := 1

  /** The one test the codec makes on the endian value. */
  predicate IsLittle(endian: int) {
    endian == LITTLE_ENDIAN
  }

  datatype EndianState = EndianState(current: int, saved: seq<int>)

  /** `Stream.__init__(endian)`: a falsy argument (absent, or 0) selects
      little-endian; the stack starts empty. */
  function Init(endian: Option<int>): (r: EndianState)
    ensures r.saved == []
    ensures r.current == endian.GetOr(LITTLE_ENDIAN)
    ensures endian.None? ==> IsLittle(r.current)
  {
    EndianState(if endian.Some? && endian.value != 0 then endian.value else LITTLE_ENDIAN, [])
  }

  /** `set_endian`: no validation; the saved stack is untouched. */
  function Set(st: EndianState, value: int): (r: EndianState)
    ensures r.current == value && r.saved == st.saved
  {
    st.(current := value)
  }

  /** `push_endian(new_value=None)`: save the current value, then switch only when
      a new value is given, so a bare push is a checkpoint. */
  function Push(st: EndianState, newValue: Option<int>): (r: EndianState)
    ensures r.saved == st.saved + [st.current]
    ensures newValue.None? ==> r.current == st.current
    ensures newValue.Some? ==> r.current == newValue.value
  {
    EndianState(if newValue.Some? then newValue.value else st.current, st.saved + [st.current])
  }

  /** `pop_endian`: restore the most recently saved value; an empty stack raises
      before anything changes. */
  function Pop(st: EndianState): (r: Result<EndianState>)
    ensures r.Failure? <==> st.saved == []
    ensures r.Failure? ==> r.error == PopFromEmpty
    ensures r.Success? ==>
              && r.value.current == st.saved[|st.saved| - 1]
              && |r.value.saved| == |st.saved| - 1
              && r.value.saved + [r.value.current] == st.saved
  {
    if st.saved == [] then Failure(PopFromEmpty)
    else Success(EndianState(st.saved[|st.saved| - 1], st.saved[..|st.saved| - 1]))
  }

  /** A pop undoes the push just before it, whatever that push selected. */
  lemma PopUndoesPush(st: EndianState, newValue: Option<int>)
    ensures Pop(Push(st, newValue)) == Success(st)
  {
    assert (st.saved + [st.current])[..|st.saved|] == st.saved;
  }

  /** The state after pushing each of `values` in order. */
  function PushAll(st: EndianState, values: seq<Option<int>>): (r: EndianState)
    ensures |r.saved| == |st.saved| + |values|
    ensures r.saved[..|st.saved|] == st.saved
  {
    if values == [] then st
    else Push(PushAll(st, values[..|values| - 1]), values[|values| - 1])
  }

  /** `n` successive pops; the first one that meets an empty stack raises. */
  function PopN(st: EndianState, n: nat): (r: Result<EndianState>)
    decreases n
  {
    if n == 0 then Success(st)
    else
      match Pop(st)
      case Failure(e) => Failure(e)
      case Success(st') => PopN(st', n - 1)
  }

  /** Nested pushes are undone in strict LIFO order: popping as many times as
      there were pushes gives back exactly the state before the first push. */
  lemma {:induction false} PopsUndoPushes(st: EndianState, values: seq<Option<int>>)
    ensures PopN(PushAll(st, values), |values|) == Success(st)
    decreases |values|
  {
    if values != [] {
      var init := values[..|values| - 1];
      PopUndoesPush(PushAll(st, init), values[|values| - 1]);
      PopsUndoPushes(st, init);
    }
  }

  /** Popping more times than values were saved raises. */
  lemma {:induction false} PopNPastDepthFails(st: EndianState, n: nat)
    requires n > |st.saved|
    ensures PopN(st, n).Failure?
    decreases n
  {
    if st.saved != [] {
      PopNPastDepthFails(Pop(st).value, n - 1);
    }
  }
}

=== FILE: namelist.dfy ===
/** The name-list framing of streams.py: names joined with ',' into one string,
    written as a u32 character count in the stream's byte order followed by the
    latin-1 bytes of that string; reading splits the string on ','. */
module NameList {
  import opened Wrappers
  import opened Bytes
  import opened Encoding
  import opened Buffer
  import opened Stream

  // ------------------------------------------------------------------ join and split

  predicate NoComma(name: string) {
    forall i :: 0 <= i < |name| ==> name[i] != ','
  }

  /** `",".join(names)`: the names with one ',' between neighbours. */
  function Join(names: seq<string>): (r: string)
    ensures names == [] ==> r == ""
    ensures |names| == 1 ==> r == names[0]
    ensures (forall i :: 0 <= i < |names| ==> IsLatin1(names[i])) ==> IsLatin1(r)
    decreases |names|
  {
    if names == [] then ""
    else if |names| == 1 then names[0]
    else names[0] + "," + Join(names[1..])
  }

  /** `text.split(",")`: the pieces between commas, so the result is never empty
      (splitting "" gives [""]) and has one more piece than `text` has commas. */
  function Split(text: string): (r: seq<string>)
    ensures |r| >= 1
    ensures forall i :: 0 <= i < |r| ==> NoComma(r[i])
    decreases |text|
  {
    if text == [] then [""]
    else
      var rest := Split(text[1..]);
      if text[0] == ',' then [""] + rest
      else [[text[0]] + rest[0]] + rest[1..]
  }

  /** Text without a comma splits into itself. */
  lemma {:induction false} SplitNoComma(text: string)
    requires NoComma(text)
    ensures Split(text) == [text]
    decreases |text|
  {
    if text != [] {
      SplitNoComma(text[1..]);
      assert [text[0]] + text[1..] == text;
    }
  }

  /** A comma-free prefix glues onto the first piece of what follows it. */
  lemma {:induction false} SplitPrefix(a: string, b: string)
    requires NoComma(a)
    ensures Split(a + b) == [a + Split(b)[0]] + Split(b)[1..]
    decreases |a|
  {
    if a == [] {
      assert a + b == b;
      assert a + Split(b)[0] == Split(b)[0];
      assert Split(b) == [Split(b)[0]] + Split(b)[1..];
    } else {
      assert (a + b)[1..] == a[1..] + b;
      SplitPrefix(a[1..], b);
      assert [a[0]] + (a[1..] + Split(b)[0]) == a + Split(b)[0];
    }
  }

  /** Splitting the join of a nonempty list of comma-free names gives the names back. */
  lemma {:induction false} SplitJoin(names: seq<string>)
    requires names != []
    requires forall i :: 0 <= i < |names| ==> NoComma(names[i])
    ensures Split(Join(names)) == names
    decreases |names|
  {
    if |names| == 1 {
      SplitNoComma(names[0]);
    } else {
      var tail := Join(names[1..]);
      SplitJoin(names[1..]);
      assert names[0] + "," + tail == names[0] + ("," + tail);
      SplitPrefix(names[0], "," + tail);
      assert ("," + tail)[1..] == tail;
      assert Split("," + tail) == [""] + names[1..];
      assert names[0] + "" == names[0];
      assert names == [names[0]] + names[1..];
    }
  }

  /** Joining the pieces of a split gives the text back, whatever the text. */
  lemma {:induction false} JoinSplit(text: string)
    ensures Join(Split(text)) == text
    decreases |text|
  {
    if text != [] {
      var rest := Split(text[1..]);
      JoinSplit(text[1..]);
      SplitStep(text);
      if text[0] == ',' {
        JoinComma(rest);
      } else {
        JoinHead([text[0]], rest);
      }
      assert [text[0]] + text[1..] == text;
    }
  }

  lemma SplitStep(text: string)
    requires text != []
    ensures var rest := Split(text[1..]);
            Split(text) == if text[0] == ',' then [""] + rest else [[text[0]] + rest[0]] + rest[1..]
  {
  }

  lemma JoinComma(rest: seq<string>)
    requires rest != []
    ensures Join([""] + rest) == "," + Join(rest)
  {
    assert ([""] + rest)[1..] == rest;
    assert "" + "," + Join(rest) == "," + Join(rest);
  }

  lemma JoinHead(x: string, rest: seq<string>)
    requires rest != []
    ensures Join([x + rest[0]] + rest[1..]) == x + Join(rest)
  {
    var names := [x + rest[0]] + rest[1..];
    if |rest| > 1 {
      assert names[1..] == rest[1..];
      assert x + rest[0] + "," + Join(rest[1..]) == x + (rest[0] + "," + Join(rest[1..]));
    }
  }

  /** The empty list and the list holding one empty name join to the same string,
      so no reader can tell them apart; both read back as [""]. */
  lemma EmptyListIsOneEmptyName()
    ensures Join([]) == Join([""])
    ensures Split(Join([])) == [""]
  {
  }

  // ------------------------------------------------------------------ framing

  /** The bytes `write_name_list(names)` appends: the character count of the joined
      string as a u32 in `endian`, then the string in latin-1. */
  function EncodeNameList(endian: int, names: seq<string>): (r: seq<byte>)
    requires forall i :: 0 <= i < |names| ==> IsLatin1(names[i])
    requires |Join(names)| < 0x1_0000_0000
    ensures |r| == 4 + |Join(names)|
    ensures Word(endian, r[..4]) == |Join(names)|
    ensures Latin1Decode(r[4..]) == Join(names)
  {
    var text := Join(names);
    U32Layout(endian, |text|);
    Latin1DecodeEncode(text);
    EncodeU32(endian, |text|) + Latin1Encode(text)
  }

  /** `write_name_list(names)` on a stream: the joined string's character count as
      a u32 in the current endian order, then bytes that decode to the joined string. */
  function WriteNameList(s: ByteStream, names: seq<string>): (r: ByteStream)
    requires forall i :: 0 <= i < |names| ==> IsLatin1(names[i])
    requires |Join(names)| < 0x1_0000_0000
    ensures Extends(s, r, 4 + |Join(names)|)
    ensures Word(s.order.current, r.data[|s.data| .. |s.data| + 4]) == |Join(names)|
    ensures Latin1Decode(r.data[|s.data| + 4 ..]) == Join(names)
  {
    var bs := EncodeNameList(s.order.current, names);
    assert bs == bs[..4] + bs[4..];
    WrittenParts(s, bs[..4], bs[4..]);
    WriteU8Array(s, bs)
  }

  /** `read_name_list`: a u32 count, `read_string` of that many characters, then
      the split on ','. Only the count can raise; a count past the end gives a short
      string and still moves the cursor by the full count. */
  function ReadNameList(s: ByteStream): (r: Outcome<seq<string>, ByteStream>)
    ensures r.Ok? <==> ReadU32(s).Ok?
    ensures r.Raised? ==> r == Raised(ReadU32(s).error, ReadU32(s).state)
    ensures r.Ok? ==> |r.value| >= 1 && r.state == Advance(s, 4 + ReadU32(s).value)
  {
    match ReadU32(s)
    case Raised(e, t) => Raised(e, t)
    case Ok(n, t) =>
      var (text, u) := ReadString(t, n);
      Ok(Split(text), u)
  }

  /** Whatever the names, reading the framing back yields the split of their join
      and consumes exactly the 4-byte count plus one byte per character. */
  lemma NameListReadsJoin(s: ByteStream, names: seq<string>)
    requires forall i :: 0 <= i < |names| ==> IsLatin1(names[i])
    requires |Join(names)| < 0x1_0000_0000
    requires Upcoming(s, EncodeNameList(s.order.current, names))
    ensures ReadNameList(s) == Ok(Split(Join(names)), Advance(s, 4 + |Join(names)|))
  {
    var text := Join(names);
    var prefix, body := EncodeU32(s.order.current, |text|), Latin1Encode(text);
    assert EncodeNameList(s.order.current, names) == prefix + body;
    UpcomingAppend(s, prefix, body);
    U32RoundTrip(s, |text|);
    var t := Advance(s, 4);
    ReadStringReads(t, body);
    Latin1DecodeEncode(text);
    assert Advance(t, |text|) == Advance(s, 4 + |text|);
  }

  /** `read_name_list` after `write_name_list(names)` returns `names` when the list
      is nonempty and no name holds a comma. */
  lemma NameListRoundTrip(s: ByteStream, names: seq<string>)
    requires names != []
    requires forall i :: 0 <= i < |names| ==> IsLatin1(names[i]) && NoComma(names[i])
    requires |Join(names)| < 0x1_0000_0000
    requires Upcoming(s, EncodeNameList(s.order.current, names))
    ensures ReadNameList(s) == Ok(names, Advance(s, 4 + |Join(names)|))
  {
    NameListReadsJoin(s, names);
    SplitJoin(names);
  }

  /** An empty list is a zero count with no payload and reads back as [""]. */
  lemma EmptyNameList(s: ByteStream)
    requires Upcoming(s, EncodeNameList(s.order.current, []))
    ensures EncodeNameList(s.order.current, []) == EncodeU32(s.order.current, 0)
    ensures ReadNameList(s) == Ok([""], Advance(s, 4))
  {
    NameListReadsJoin(s, []);
    assert Latin1Encode("") == [];
    assert EncodeU32(s.order.current, 0) + [] == EncodeU32(s.order.current, 0);
  }

  /** A count larger than what remains still reads: the names come from the bytes
      that exist, and the cursor lands past the logical length, where `is_eof` is false. */
  lemma NameListOverRead(s: ByteStream)
    requires s.length == |s.data|
    requires 0 <= s.readPosition && s.readPosition + 4 <= |s.data|
    requires ReadU32(s).Ok? && |s.data| < s.readPosition + 4 + ReadU32(s).value
    ensures ReadNameList(s).Ok?
    ensures ReadNameList(s).value == Split(Latin1Decode(s.data[s.readPosition + 4..]))
    ensures !IsEof(ReadNameList(s).state)
  {
    OverReadPassesEof(Advance(s, 4), ReadU32(s).value);
  }

  /** On a stream read up to its end, `read_name_list` right after
      `write_name_list(names)` gives the names back when the list is nonempty and
      no name holds a comma. */
  lemma NameListWriteRead(s: ByteStream, names: seq<string>)
    requires names != []
    requires forall i :: 0 <= i < |names| ==> IsLatin1(names[i]) && NoComma(names[i])
    requires |Join(names)| < 0x1_0000_0000
    requires s.readPosition == |s.data|
    ensures ReadNameList(WriteNameList(s, names)) == Ok(names, Advance(WriteNameList(s, names), 4 + |Join(names)|))
  {
    WrittenIsUpcoming(s, EncodeNameList(s.order.current, names));
    NameListRoundTrip(WriteNameList(s, names), names);
  }
}

=== FILE: stream.dfy ===
/** The codec of stream.py (`Stream`) run against the in-memory backend.

    Writers append the byte strings of `Encoding` (a run of `write_u8` calls is one
    `write_u8_array`, see `Buffer.WritesCompose`). Readers are built from
    `read_u8` and `read_u8_array` in the same order and with the same loops as the
    source, so a reader that runs out of bytes raises with the cursor where the
    failing `read_u8` left it. Each reader is proved to invert its writer. */
module Stream {
  import opened Wrappers
  import opened Bytes
  import Endian
  import opened Encoding
  import opened Buffer

  // ------------------------------------------------------------------ endian on a stream

  /** `push_endian(new_value)` on a stream: only the endian state changes. */
  function PushEndian(s: ByteStream, newValue: Option<int>): (r: ByteStream)
    ensures r.order == Endian.Push(s.order, newValue)
    ensures r.(order := s.order) == s
  {
    s.(order := Endian.Push(s.order, newValue))
  }

  /** `pop_endian()` on a stream: raises on an empty endian stack. */
  function PopEndian(s: ByteStream): (r: Result<ByteStream>)
    ensures r.Failure? <==> s.order.saved == []
    ensures r.Success? ==> r.value.(order := s.order) == s && Endian.Pop(s.order) == Success(r.value.order)
  {
    match Endian.Pop(s.order)
    case Failure(e) => Failure(e)
    case Success(o) => Success(s.(order := o))
  }

  // ------------------------------------------------------------------ writers

  /** `write_bool`: one byte, nonzero exactly for true. */
  function WriteBool(s: ByteStream, b: bool): (r: ByteStream)
    ensures Extends(s, r, 1) && (r.data[|s.data|] != 0 <==> b)
  {
    WriteU8Array(s, EncodeBool(b))
  }

  /** `write_u16`: two bytes holding `v` in the current endian order. */
  function WriteU16(s: ByteStream, v: int): (r: ByteStream)
    requires 0 <= v < 0x1_0000
    ensures Extends(s, r, 2) && Word(s.order.current, r.data[|s.data|..]) == v
  {
    WriteU8Array(s, EncodeU16(s.order.current, v))
  }

  /** `write_u32`: four bytes holding `v` in the current endian order. */
  function WriteU32(s: ByteStream, v: int): (r: ByteStream)
    requires 0 <= v < 0x1_0000_0000
    ensures Extends(s, r, 4) && Word(s.order.current, r.data[|s.data|..]) == v
  {
    WriteU8Array(s, EncodeU32(s.order.current, v))
  }

  /** `write_u24`: three bytes holding `v` in the current endian order. */
  function WriteU24(s: ByteStream, v: int): (r: ByteStream)
    requires 0 <= v < 0x100_0000
    ensures Extends(s, r, 3) && Word(s.order.current, r.data[|s.data|..]) == v
  {
    WriteU8Array(s, EncodeU24(s.order.current, v))
  }

  /** `write_u64`: eight bytes holding `v` in the current endian order. */
  function WriteU64(s: ByteStream, v: int): (r: ByteStream)
    requires 0 <= v < 0x1_0000_0000_0000_0000
    ensures Extends(s, r, 8) && Word(s.order.current, r.data[|s.data|..]) == v
  {
    WriteU8Array(s, EncodeU64(s.order.current, v))
  }

  /** `write_string`: one byte per character, which decode back to the text. */
  function WriteString(s: ByteStream, text: string): (r: ByteStream)
    requires IsLatin1(text)
    ensures Extends(s, r, |text|) && Latin1Decode(r.data[|s.data|..]) == text
  {
    Latin1DecodeEncode(text);
    WriteU8Array(s, Latin1Encode(text))
  }

  /** `write_nt_string`: the text's bytes, which decode back to it, then a zero byte. */
  function WriteNtString(s: ByteStream, text: string): (r: ByteStream)
    requires IsLatin1(text)
    ensures Extends(s, r, |text| + 1) && r.data[|r.data| - 1] == 0
    ensures Latin1Decode(r.data[|s.data| .. |r.data| - 1]) == text
  {
    Latin1DecodeEncode(text);
    var r := WriteU8Array(s, EncodeNtString(text));
    assert r.data[|s.data| .. |r.data| - 1] == EncodeNtString(text)[..|text|];
    r
  }

  /** `write_vluq_string`: a minimal VLUQ holding the character count, then the
      text's bytes, which decode back to it. */
  function WriteVluqString(s: ByteStream, text: string): (r: ByteStream)
    requires IsLatin1(text)
    ensures var k := |EncodeVluq(|text|)|;
            && Extends(s, r, k + |text|)
            && IsMinimalVluq(r.data[|s.data| .. |s.data| + k])
            && VluqValue(r.data[|s.data| .. |s.data| + k]) == |text|
            && Latin1Decode(r.data[|s.data| + k ..]) == text
  {
    var prefix, body := EncodeVluq(|text|), Latin1Encode(text);
    Latin1DecodeEncode(text);
    VluqEncodingLayout(|text|);
    WrittenParts(s, prefix, body);
    assert EncodeVluqString(text) == prefix + body;
    WriteU8Array(s, EncodeVluqString(text))
  }

  /** `write_vluq`: a minimal VLUQ holding `v`. */
  function WriteVluq(s: ByteStream, v: nat): (r: ByteStream)
    ensures Extends(s, r, |EncodeVluq(v)|)
    ensures IsMinimalVluq(r.data[|s.data|..]) && VluqValue(r.data[|s.data|..]) == v
  {
    VluqEncodingLayout(v);
    WriteU8Array(s, EncodeVluq(v))
  }

  /** `write_vlsq`: a minimal VLUQ whose signed reading is `v`. */
  function WriteVlsq(s: ByteStream, v: int): (r: ByteStream)
    ensures Extends(s, r, |EncodeVlsq(v)|)
    ensures IsMinimalVluq(r.data[|s.data|..]) && VlsqOf(VluqValue(r.data[|s.data|..])) == v
  {
    VlsqRoundTrip(v);
    WriteU8Array(s, EncodeVlsq(v))
  }

  /** Bytes written by a reader that has consumed everything before them are the
      next bytes it reads. */
  lemma WrittenIsUpcoming(s: ByteStream, bs: seq<byte>)
    requires s.readPosition == |s.data|
    ensures Upcoming(WriteU8Array(s, bs), bs)
  {
    WriteExtendsUnread(s, bs);
    assert s.data[s.readPosition..] == [];
  }

  // ------------------------------------------------------------------ bool

  /** `read_bool`: one byte; false only for 0, true for every other byte. */
  function ReadBool(s: ByteStream): (r: Outcome<bool, ByteStream>)
    ensures r.Ok? <==> ReadU8(s).Ok?
    ensures r.Ok? ==> (r.value <==> ReadU8(s).value != 0) && r.state == ReadU8(s).state
  {
    match ReadU8(s)
    case Raised(e, t) => Raised(e, t)
    case Ok(b, t) => Ok(b != 0, t)
  }

  /** `write_bool` then `read_bool` gives the same truth value back, consuming one byte. */
  lemma BoolRoundTrip(s: ByteStream, b: bool)
    requires s.readPosition == |s.data|
    ensures ReadBool(WriteBool(s, b)) == Ok(b, Advance(WriteBool(s, b), 1))
  {
    WrittenIsUpcoming(s, EncodeBool(b));
  }

  // ------------------------------------------------------------------ fixed width

  /** `read_u16`: two `read_u8` calls, the first one low when little-endian. */
  function ReadU16(s: ByteStream): (r: Outcome<nat, ByteStream>)
    ensures r.Ok? ==> r.value < 0x1_0000 && r.state == Advance(s, 2)
    ensures r.Raised? ==> r.error == IndexOutOfRange
    ensures r.Raised? ==> s.readPosition <= r.state.readPosition < s.readPosition + 2
                          && r.state == Advance(s, r.state.readPosition - s.readPosition)
  {
    match ReadU8(s)
    case Raised(e, t) => Raised(e, t)
    case Ok(first, t) =>
      match ReadU8(t)
      case Raised(e, u) => Raised(e, u)
      case Ok(second, u) =>
        var b0, b1: int := first, second;
        Ok(if Endian.IsLittle(s.order.current) then b0 + b1 * 0x100 else b0 * 0x100 + b1, u)
  }

  /** `read_u24`: three `read_u8` calls in endian order. */
  function ReadU24(s: ByteStream): (r: Outcome<nat, ByteStream>)
    ensures r.Ok? ==> r.value < 0x100_0000 && r.state == Advance(s, 3)
    ensures r.Raised? ==> r.error == IndexOutOfRange
    ensures r.Raised? ==> s.readPosition <= r.state.readPosition < s.readPosition + 3
                          && r.state == Advance(s, r.state.readPosition - s.readPosition)
  {
    match ReadU8(s)
    case Raised(e, t) => Raised(e, t)
    case Ok(first, t) =>
      match ReadU8(t)
      case Raised(e, u) => Raised(e, u)
      case Ok(second, u) =>
        match ReadU8(u)
        case Raised(e, w) => Raised(e, w)
        case Ok(third, w) =>
          var b0, b1, b2: int := first, second, third;
          Ok(if Endian.IsLittle(s.order.current) then b0 + b1 * 0x100 + b2 * 0x1_0000
             else b0 * 0x1_0000 + b1 * 0x100 + b2, w)
  }

  /** `read_u32`: two `read_u16` calls, the first one low when little-endian. */
  function ReadU32(s: ByteStream): (r: Outcome<nat, ByteStream>)
    ensures r.Ok? ==> r.value < 0x1_0000_0000 && r.state == Advance(s, 4)
    ensures r.Raised? ==> r.error == IndexOutOfRange
    ensures r.Raised? ==> s.readPosition <= r.state.readPosition < s.readPosition + 4
                          && r.state == Advance(s, r.state.readPosition - s.readPosition)
  {
    match ReadU16(s)
    case Raised(e, t) => Raised(e, t)
    case Ok(first, t) =>
      match ReadU16(t)
      case Raised(e, u) => Raised(e, u)
      case Ok(second, u) =>
        Ok(if Endian.IsLittle(s.order.current) then first + second * 0x1_0000 else first * 0x1_0000 + second, u)
  }

  /** `read_u64`: two `read_u32` calls, the first one low when little-endian. */
  function ReadU64(s: ByteStream): (r: Outcome<nat, ByteStream>)
    ensures r.Ok? ==> r.value < 0x1_0000_0000_0000_0000 && r.state == Advance(s, 8)
    ensures r.Raised? ==> r.error == IndexOutOfRange
    ensures r.Raised? ==> s.readPosition <= r.state.readPosition < s.readPosition + 8
                          && r.state == Advance(s, r.state.readPosition - s.readPosition)
  {
    match ReadU32(s)
    case Raised(e, t) => Raised(e, t)
    case Ok(first, t) =>
      match ReadU32(t)
      case Raised(e, u) => Raised(e, u)
      case Ok(second, u) =>
        Ok(if Endian.IsLittle(s.order.current) then first + second * 0x1_0000_0000
           else first * 0x1_0000_0000 + second, u)
  }

  /** `read_u16` of two upcoming bytes is their value in the current endian order. */
  lemma ReadU16Reads(s: ByteStream, bs: seq<byte>)
    requires |bs| == 2 && Upcoming(s, bs)
    ensures ReadU16(s) == Ok(Word(s.order.current, bs), Advance(s, 2))
  {
    UpcomingHead(s, bs);
    UpcomingHead(Advance(s, 1), bs[1..]);
    assert LeValue(bs[1..]) == bs[1];
    var rev := Reverse(bs);
    assert LeValue(rev[1..]) == rev[1];
  }

  /** `read_u24` of three upcoming bytes is their value in the current endian order. */
  lemma ReadU24Reads(s: ByteStream, bs: seq<byte>)
    requires |bs| == 3 && Upcoming(s, bs)
    ensures ReadU24(s) == Ok(Word(s.order.current, bs), Advance(s, 3))
  {
    UpcomingHead(s, bs);
    UpcomingHead(Advance(s, 1), bs[1..]);
    UpcomingHead(Advance(s, 2), bs[2..]);
    assert LeValue(bs[2..]) == bs[2];
    assert LeValue(bs[1..]) == bs[1] as int + 0x100 * (bs[2] as int);
    var rev := Reverse(bs);
    assert LeValue(rev[2..]) == rev[2];
    assert LeValue(rev[1..]) == rev[1] as int + 0x100 * (rev[2] as int);
  }

  /** The two equal halves of a field combine the way `read_u32` and `read_u64`
      combine their two reads. */
  lemma WordHalves(endian: int, bs: seq<byte>, h: nat, scale: nat)
    requires |bs| == 2 * h && scale == Pow(0x100, h)
    ensures Word(endian, bs)
            == if Endian.IsLittle(endian) then Word(endian, bs[..h]) + Word(endian, bs[h..]) * scale
               else Word(endian, bs[..h]) * scale + Word(endian, bs[h..])
  {
    var a, b := bs[..h], bs[h..];
    assert bs == a + b;
    WordAppend(endian, a, b);
  }

  lemma ByteScales()
    ensures Pow(0x100, 2) == 0x1_0000 && Pow(0x100, 4) == 0x1_0000_0000
  {
    assert Pow(0x100, 2) == 0x1_0000;
    assert Pow(0x100, 4) == 0x1_0000_0000;
  }

  /** `read_u32` of four upcoming bytes: the two halves compose into one field. */
  lemma ReadU32Reads(s: ByteStream, bs: seq<byte>)
    requires |bs| == 4 && Upcoming(s, bs)
    ensures ReadU32(s) == Ok(Word(s.order.current, bs), Advance(s, 4))
  {
    var e := s.order.current;
    var a, b := bs[..2], bs[2..];
    UpcomingSplit(s, bs, 2);
    ReadU16Reads(s, a);
    ReadU16Reads(Advance(s, 2), b);
    ByteScales();
    WordHalves(e, bs, 2, 0x1_0000);
    U32FromHalves(s, Word(e, a), Word(e, b));
  }

  /** `read_u32` is its two `read_u16` calls combined. */
  lemma U32FromHalves(s: ByteStream, first: nat, second: nat)
    requires ReadU16(s) == Ok(first, Advance(s, 2))
    requires ReadU16(Advance(s, 2)) == Ok(second, Advance(Advance(s, 2), 2))
    ensures ReadU32(s) == Ok(if Endian.IsLittle(s.order.current) then first + second * 0x1_0000
                             else first * 0x1_0000 + second, Advance(s, 4))
  {
  }

  /** `read_u64` of eight upcoming bytes: the two halves compose into one field. */
  lemma ReadU64Reads(s: ByteStream, bs: seq<byte>)
    requires |bs| == 8 && Upcoming(s, bs)
    ensures ReadU64(s) == Ok(Word(s.order.current, bs), Advance(s, 8))
  {
    ReadU64Halves(s, bs);
    ByteScales();
    WordHalves(s.order.current, bs, 4, 0x1_0000_0000);
  }

  /** `read_u64` of eight upcoming bytes reads their two four-byte halves. */
  lemma ReadU64Halves(s: ByteStream, bs: seq<byte>)
    requires |bs| == 8 && Upcoming(s, bs)
    ensures var x, y := Word(s.order.current, bs[..4]), Word(s.order.current, bs[4..]);
            ReadU64(s) == Ok(if Endian.IsLittle(s.order.current) then x + y * 0x1_0000_0000
                             else x * 0x1_0000_0000 + y, Advance(s, 8))
  {
    var e := s.order.current;
    UpcomingSplit(s, bs, 4);
    ReadU32Reads(s, bs[..4]);
    ReadU32Reads(Advance(s, 4), bs[4..]);
    U64FromHalves(s, Word(e, bs[..4]), Word(e, bs[4..]));
  }

  /** `read_u64` is its two `read_u32` calls combined. */
  lemma U64FromHalves(s: ByteStream, first: nat, second: nat)
    requires ReadU32(s) == Ok(first, Advance(s, 4))
    requires ReadU32(Advance(s, 4)) == Ok(second, Advance(Advance(s, 4), 4))
    ensures ReadU64(s) == Ok(if Endian.IsLittle(s.order.current) then first + second * 0x1_0000_0000
                             else first * 0x1_0000_0000 + second, Advance(s, 8))
  {
  }

  /** Under one endian setting, reading a `u16` where one was written gives it back. */
  lemma U16RoundTrip(s: ByteStream, v: int)
    requires 0 <= v < 0x1_0000
    requires Upcoming(s, EncodeU16(s.order.current, v))
    ensures ReadU16(s) == Ok(v, Advance(s, 2))
  {
    ReadU16Reads(s, EncodeU16(s.order.current, v));
    U16Layout(s.order.current, v);
  }

  lemma U24RoundTrip(s: ByteStream, v: int)
    requires 0 <= v < 0x100_0000
    requires Upcoming(s, EncodeU24(s.order.current, v))
    ensures ReadU24(s) == Ok(v, Advance(s, 3))
  {
    ReadU24Reads(s, EncodeU24(s.order.current, v));
    U24Layout(s.order.current, v);
  }

  lemma U32RoundTrip(s: ByteStream, v: int)
    requires 0 <= v < 0x1_0000_0000
    requires Upcoming(s, EncodeU32(s.order.current, v))
    ensures ReadU32(s) == Ok(v, Advance(s, 4))
  {
    ReadU32Reads(s, EncodeU32(s.order.current, v));
    U32Layout(s.order.current, v);
  }

  lemma U64RoundTrip(s: ByteStream, v: int)
    requires 0 <= v < 0x1_0000_0000_0000_0000
    requires Upcoming(s, EncodeU64(s.order.current, v))
    ensures ReadU64(s) == Ok(v, Advance(s, 8))
  {
    ReadU64Reads(s, EncodeU64(s.order.current, v));
    U64Layout(s.order.current, v);
  }

  /** On a stream read up to its end, each fixed-width reader gives back the value
      its writer just appended and consumes exactly the bytes written. */
  lemma FixedWidthWriteRead(s: ByteStream, v: nat)
    requires s.readPosition == |s.data|
    ensures v < 0x1_0000 ==> ReadU16(WriteU16(s, v)) == Ok(v, Advance(WriteU16(s, v), 2))
    ensures v < 0x100_0000 ==> ReadU24(WriteU24(s, v)) == Ok(v, Advance(WriteU24(s, v), 3))
    ensures v < 0x1_0000_0000 ==> ReadU32(WriteU32(s, v)) == Ok(v, Advance(WriteU32(s, v), 4))
    ensures v < 0x1_0000_0000_0000_0000 ==> ReadU64(WriteU64(s, v)) == Ok(v, Advance(WriteU64(s, v), 8))
  {
    var e := s.order.current;
    if v < 0x1_0000 {
      WrittenIsUpcoming(s, EncodeU16(e, v));
      U16RoundTrip(WriteU16(s, v), v);
    }
    if v < 0x100_0000 {
      WrittenIsUpcoming(s, EncodeU24(e, v));
      U24RoundTrip(WriteU24(s, v), v);
    }
    if v < 0x1_0000_0000 {
      WrittenIsUpcoming(s, EncodeU32(e, v));
      U32RoundTrip(WriteU32(s, v), v);
    }
    if v < 0x1_0000_0000_0000_0000 {
      WrittenIsUpcoming(s, EncodeU64(e, v));
      U64RoundTrip(WriteU64(s, v), v);
    }
  }

  /** From a non-negative cursor, a fixed-width read succeeds exactly when its
      width in stored bytes remains; otherwise one of its `read_u8` calls raises. */
  lemma FixedWidthNeedsBytes(s: ByteStream)
    requires 0 <= s.readPosition
    ensures ReadU16(s).Ok? <==> s.readPosition + 2 <= |s.data|
    ensures ReadU24(s).Ok? <==> s.readPosition + 3 <= |s.data|
    ensures ReadU32(s).Ok? <==> s.readPosition + 4 <= |s.data|
    ensures ReadU64(s).Ok? <==> s.readPosition + 8 <= |s.data|
  {
    var p := s.readPosition;
    if p + 4 <= |s.data| {
      ReadU32Reads(s, s.data[p .. p + 4]);
    } else if p + 2 <= |s.data| {
      assert ReadU16(Advance(s, 2)).Raised?;
    }
    if p + 8 <= |s.data| {
      ReadU64Reads(s, s.data[p .. p + 8]);
    } else if p + 4 <= |s.data| {
      ReadU32Reads(s, s.data[p .. p + 4]);
      if p + 6 <= |s.data| {
        assert ReadU16(Advance(s, 6)).Raised?;
      } else {
        assert ReadU16(Advance(s, 4)).Raised?;
      }
    }
  }

  /** A field written inside a `push_endian(e)` ... `pop_endian()` scope reads back
      inside a matching scope on the reading side, and both scopes restore the
      stream's own endian state. */
  lemma ScopedEndianRoundTrip(s: ByteStream, e: int, v: int)
    requires 0 <= v < 0x1_0000_0000
    requires s.readPosition == |s.data|
    ensures PopEndian(WriteU32(PushEndian(s, Some(e)), v)).Success?
    ensures PopEndian(WriteU32(PushEndian(s, Some(e)), v)).value.order == s.order
    ensures ReadU32(PushEndian(PopEndian(WriteU32(PushEndian(s, Some(e)), v)).value, Some(e))).Ok?
    ensures ReadU32(PushEndian(PopEndian(WriteU32(PushEndian(s, Some(e)), v)).value, Some(e))).value == v
  {
    var p := PushEndian(s, Some(e));
    Endian.PopUndoesPush(s.order, Some(e));
    var w := WriteU32(p, v);
    var q := PopEndian(w).value;
    var r := PushEndian(q, Some(e));
    assert r.order.current == e;
    WrittenIsUpcoming(p, EncodeU32(e, v));
    assert r.data == w.data && r.readPosition == w.readPosition;
    U32RoundTrip(r, v);
  }

  // ------------------------------------------------------------------ VLUQ / VLSQ

  /** The loop of `read_vluq` from a given accumulator and shift: one `read_u8`
      per iteration, adding the low seven bits shifted into place, until a byte
      without the top bit, which is added whole. */
  function ReadVluqFrom(s: ByteStream, accumulator: nat, shift: nat): (r: Outcome<nat, ByteStream>)
    ensures r.state.data == s.data && r.state.order == s.order
    ensures r.state == s.(readPosition := r.state.readPosition)
    ensures r.Ok? ==> r.state.readPosition > s.readPosition
    ensures r.Raised? ==> r.error == IndexOutOfRange
    decreases |s.data| - s.readPosition
  {
    match ReadU8(s)
    case Raised(e, t) => Raised(e, t)
    case Ok(value, t) =>
      if value > 0x7f then ReadVluqFrom(t, accumulator + (value % 0x80) * Pow(2, shift), shift + 7)
      else Ok(accumulator + value * Pow(2, shift), t)
  }

  /** `read_vluq`: only the cursor moves, forward by at least one byte on success;
      running out of bytes raises `IndexOutOfRange`. */
  function ReadVluq(s: ByteStream): (r: Outcome<nat, ByteStream>)
    ensures r.state.data == s.data
    ensures r.state == s.(readPosition := r.state.readPosition)
    ensures r.Ok? ==> r.state.readPosition > s.readPosition
    ensures r.Raised? ==> r.error == IndexOutOfRange
  {
    ReadVluqFrom(s, 0, 0)
  }

  /** One more group read: its low bits scaled by 2^shift, the rest by 2^(shift+7). */
  lemma ShiftStep(acc: nat, shift: nat, low: nat, rest: nat)
    ensures acc + low * Pow(2, shift) + Pow(2, shift + 7) * rest == acc + Pow(2, shift) * (low + 0x80 * rest)
  {
    var p := Pow(2, shift);
    PowAdd(2, shift, 7);
    assert Pow(2, 7) == 0x80;
    assert Pow(2, shift + 7) == p * 0x80;
    assert p * 0x80 * rest == p * (0x80 * rest);
  }

  /** One iteration of the `read_vluq` loop over a byte with the top bit set. */
  lemma ReadVluqFromStep(s: ByteStream, b: byte, accumulator: nat, shift: nat)
    requires ReadU8(s) == Ok(b, Advance(s, 1)) && b > 0x7f
    ensures ReadVluqFrom(s, accumulator, shift)
            == ReadVluqFrom(Advance(s, 1), accumulator + (b % 0x80) * Pow(2, shift), shift + 7)
  {
  }

  /** The last iteration of the `read_vluq` loop, over a byte without the top bit. */
  lemma ReadVluqFromLast(s: ByteStream, b: byte, accumulator: nat, shift: nat)
    requires ReadU8(s) == Ok(b, Advance(s, 1)) && b <= 0x7f
    ensures ReadVluqFrom(s, accumulator, shift) == Ok(accumulator + Pow(2, shift) * b, Advance(s, 1))
  {
  }

  lemma {:induction false} ReadVluqFromReads(s: ByteStream, bs: seq<byte>, accumulator: nat, shift: nat)
    requires IsVluq(bs) && Upcoming(s, bs)
    ensures ReadVluqFrom(s, accumulator, shift)
            == Ok(accumulator + Pow(2, shift) * VluqValue(bs), Advance(s, |bs|))
    decreases |bs|
  {
    var b := bs[0];
    var t := Advance(s, 1);
    UpcomingHead(s, bs);
    if |bs| == 1 {
      VluqSingle(bs);
      ReadVluqFromLast(s, b, accumulator, shift);
    } else {
      var rest := bs[1..];
      VluqTail(bs);
      ReadVluqFromStep(s, b, accumulator, shift);
      var acc' := accumulator + (b % 0x80) * Pow(2, shift);
      ReadVluqFromReads(t, rest, acc', shift + 7);
      ShiftStep(accumulator, shift, b % 0x80, VluqValue(rest));
      assert Advance(t, |rest|) == Advance(s, |bs|);
    }
  }

  /** `read_vluq` of any well-framed VLUQ (minimal or not) is its value, and it
      consumes exactly its bytes. */
  lemma ReadVluqReads(s: ByteStream, bs: seq<byte>)
    requires IsVluq(bs) && Upcoming(s, bs)
    ensures ReadVluq(s) == Ok(VluqValue(bs), Advance(s, |bs|))
  {
    ReadVluqFromReads(s, bs, 0, 0);
  }

  /** `read_vluq` after `write_vluq(v)` returns `v` and consumes exactly the bytes
      written, for every `v >= 0`. */
  lemma VluqRoundTrip(s: ByteStream, v: nat)
    requires s.readPosition == |s.data|
    ensures ReadVluq(WriteVluq(s, v)) == Ok(v, Advance(WriteVluq(s, v), |EncodeVluq(v)|))
    ensures Advance(WriteVluq(s, v), |EncodeVluq(v)|).readPosition == |WriteVluq(s, v).data|
  {
    WrittenIsUpcoming(s, EncodeVluq(v));
    VluqEncodingLayout(v);
    ReadVluqReads(WriteVluq(s, v), EncodeVluq(v));
  }

  /** A VLUQ cut off before its final byte makes `read_vluq` raise, with the
      cursor left at the end of the data. */
  lemma {:induction false} ReadVluqTruncated(s: ByteStream, accumulator: nat, shift: nat)
    requires 0 <= s.readPosition <= |s.data|
    requires forall i :: s.readPosition <= i < |s.data| ==> s.data[i] > 0x7f
    ensures ReadVluqFrom(s, accumulator, shift).Raised?
    ensures ReadVluqFrom(s, accumulator, shift).state == s.(readPosition := |s.data|)
    decreases |s.data| - s.readPosition
  {
    if s.readPosition < |s.data| {
      var b := s.data[s.readPosition];
      ReadVluqTruncated(Advance(s, 1), accumulator + (b % 0x80) * Pow(2, shift), shift + 7);
    }
  }

  /** The loop `read_vluq` runs, written as the source writes it. */
  method ReadVluqLoop(s: ByteStream) returns (r: Outcome<nat, ByteStream>)
    ensures r == ReadVluq(s)
  {
    var accumulator: nat, shift: nat := 0, 0;
    var first := ReadU8(s);
    if first.Raised? {
      return Raised(first.error, first.state);
    }
    var value := first.value;
    var cur := first.state;
    while value > 0x7f
      invariant cur.data == s.data && cur.readPosition <= |s.data|
      invariant ReadVluq(s) == (if value > 0x7f
                                then ReadVluqFrom(cur, accumulator + (value % 0x80) * Pow(2, shift), shift + 7)
                                else Ok(accumulator + value * Pow(2, shift), cur))
      decreases |cur.data| - cur.readPosition
    {
      accumulator := accumulator + (value % 0x80) * Pow(2, shift);
      shift := shift + 7;
      var next := ReadU8(cur);
      if next.Raised? {
        return Raised(next.error, next.state);
      }
      value := next.value;
      cur := next.state;
    }
    return Ok(accumulator + value * Pow(2, shift), cur);
  }

  /** `read_vlsq`: a VLUQ whose bit 0 is the sign and whose remaining bits are the magnitude. */
  function ReadVlsq(s: ByteStream): (r: Outcome<int, ByteStream>)
    ensures r.Ok? <==> ReadVluq(s).Ok?
    ensures r.state == ReadVluq(s).state
  {
    match ReadVluq(s)
    case Raised(e, t) => Raised(e, t)
    case Ok(u, t) => Ok(VlsqOf(u), t)
  }

  /** `read_vlsq` after `write_vlsq(v)` returns `v` for every integer and consumes
      exactly the bytes written. */
  lemma VlsqStreamRoundTrip(s: ByteStream, v: int)
    requires s.readPosition == |s.data|
    ensures ReadVlsq(WriteVlsq(s, v)) == Ok(v, Advance(WriteVlsq(s, v), |EncodeVlsq(v)|))
  {
    WrittenIsUpcoming(s, EncodeVlsq(v));
    ReadVluqReads(WriteVlsq(s, v), EncodeVlsq(v));
    VlsqRoundTrip(v);
  }

  // ------------------------------------------------------------------ strings

  /** `read_string(n)`: `read_u8_array(n)` decoded as latin-1; never raises, and
      near the end returns fewer than `n` characters while still moving the cursor by `n`. */
  function ReadString(s: ByteStream, n: int): (r: (string, ByteStream))
    ensures r.1 == Advance(s, n) && IsLatin1(r.0)
    ensures 0 <= n && 0 <= s.readPosition && s.readPosition + n <= |s.data| ==>
              Latin1Encode(r.0) == s.data[s.readPosition .. s.readPosition + n]
    ensures 0 <= n && 0 <= s.readPosition <= |s.data| < s.readPosition + n ==>
              |r.0| == |s.data| - s.readPosition < n
    ensures 0 <= n && 0 <= s.readPosition <= |s.data| < s.readPosition + n ==>
              Latin1Encode(r.0) == s.data[s.readPosition..]
  {
    var (bytes, t) := ReadU8Array(s, n);
    Latin1EncodeDecode(bytes);
    (Latin1Decode(bytes), t)
  }

  /** `read_string` of upcoming bytes decodes exactly them. */
  lemma ReadStringReads(s: ByteStream, bs: seq<byte>)
    requires Upcoming(s, bs)
    ensures ReadString(s, |bs|) == (Latin1Decode(bs), Advance(s, |bs|))
  {
    var r := ReadString(s, |bs|);
    Latin1EncodeDecode(bs);
    Latin1DecodeEncode(r.0);
  }

  /** The loop of `read_nt_string`: `read_u8` until a zero byte, which is consumed
      but not returned. */
  function ReadNtFrom(s: ByteStream, output: seq<byte>): (r: Outcome<string, ByteStream>)
    decreases |s.data| - s.readPosition
  {
    match ReadU8(s)
    case Raised(e, t) => Raised(e, t)
    case Ok(value, t) =>
      if value != 0 then ReadNtFrom(t, output + [value]) else Ok(Latin1Decode(output), t)
  }

  /** `read_nt_string`. */
  function ReadNtString(s: ByteStream): (r: Outcome<string, ByteStream>)
    ensures r.Ok? ==> r.state.readPosition > s.readPosition
  {
    ReadNtFromGrows(s, []);
    ReadNtFrom(s, [])
  }

  lemma {:induction false} ReadNtFromGrows(s: ByteStream, output: seq<byte>)
    ensures ReadNtFrom(s, output).Ok? ==> ReadNtFrom(s, output).state.readPosition > s.readPosition
    decreases |s.data| - s.readPosition
  {
    match ReadU8(s)
    case Raised(_, _) =>
    case Ok(value, t) =>
      if value != 0 {
        ReadNtFromGrows(t, output + [value]);
      }
  }

  /** From a non-negative cursor with no zero byte left, the loop runs off the end
      and raises, with the cursor left at the end of the data. */
  lemma {:induction false} ReadNtTruncated(s: ByteStream, output: seq<byte>)
    requires 0 <= s.readPosition <= |s.data|
    requires forall i :: s.readPosition <= i < |s.data| ==> s.data[i] != 0
    ensures ReadNtFrom(s, output).Raised?
    ensures ReadNtFrom(s, output).state == s.(readPosition := |s.data|)
    decreases |s.data| - s.readPosition
  {
    if s.readPosition < |s.data| {
      ReadNtTruncated(Advance(s, 1), output + [s.data[s.readPosition]]);
    }
  }

  lemma {:induction false} ReadNtFromReads(s: ByteStream, output: seq<byte>, bs: seq<byte>)
    requires Upcoming(s, bs + [0])
    requires forall i :: 0 <= i < |bs| ==> bs[i] != 0
    ensures ReadNtFrom(s, output) == Ok(Latin1Decode(output + bs), Advance(s, |bs| + 1))
    decreases |bs|
  {
    UpcomingHead(s, bs + [0]);
    if bs == [] {
      assert output + bs == output;
    } else {
      assert (bs + [0])[1..] == bs[1..] + [0];
      ReadNtFromReads(Advance(s, 1), output + [bs[0]], bs[1..]);
      assert output + [bs[0]] + bs[1..] == output + bs;
    }
  }

  /** `read_nt_string` after `write_nt_string(s)` returns `s` when it has no NUL
      character, and consumes `len(s) + 1` bytes. */
  lemma NtStringRoundTrip(s: ByteStream, text: string)
    requires IsLatin1(text)
    requires forall i :: 0 <= i < |text| ==> text[i] != 0 as char
    requires Upcoming(s, EncodeNtString(text))
    ensures ReadNtString(s) == Ok(text, Advance(s, |text| + 1))
  {
    var bs := Latin1Encode(text);
    assert forall i :: 0 <= i < |bs| ==> bs[i] != 0 by {
      forall i | 0 <= i < |bs| ensures bs[i] != 0 {
        assert bs[i] == text[i] as int;
      }
    }
    ReadNtFromReads(s, [], bs);
    assert [] + bs == bs;
    Latin1DecodeEncode(text);
  }

  /** The loop of `read_crlf_string`: `read_u8` until a 0x0D byte; that byte and
      one more, whatever it is, are appended and returned. */
  function ReadCrlfFrom(s: ByteStream, output: seq<byte>): (r: Outcome<string, ByteStream>)
    decreases |s.data| - s.readPosition
  {
    match ReadU8(s)
    case Raised(e, t) => Raised(e, t)
    case Ok(value, t) =>
      if value != 0x0d then ReadCrlfFrom(t, output + [value])
      else
        match ReadU8(t)
        case Raised(e, u) => Raised(e, u)
        case Ok(last, u) => Ok(Latin1Decode(output + [value, last]), u)
  }

  /** `read_crlf_string` (read only; the source has no writer for it). */
  function ReadCrlfString(s: ByteStream): (r: Outcome<string, ByteStream>)
    ensures r.Ok? ==> |r.value| >= 2 && r.value[|r.value| - 2] == 0x0d as char
  {
    ReadCrlfShape(s, []);
    ReadCrlfFrom(s, [])
  }

  lemma {:induction false} ReadCrlfShape(s: ByteStream, output: seq<byte>)
    ensures var r := ReadCrlfFrom(s, output);
            r.Ok? ==> |r.value| >= |output| + 2 && r.value[|r.value| - 2] == 0x0d as char
    decreases |s.data| - s.readPosition
  {
    match ReadU8(s)
    case Raised(_, _) =>
    case Ok(value, t) =>
      if value != 0x0d {
        ReadCrlfShape(t, output + [value]);
      }
  }

  /** From a non-negative cursor with no 0x0D byte left, the loop runs off the end
      and raises, with the cursor left at the end of the data. */
  lemma {:induction false} ReadCrlfTruncated(s: ByteStream, output: seq<byte>)
    requires 0 <= s.readPosition <= |s.data|
    requires forall i :: s.readPosition <= i < |s.data| ==> s.data[i] != 0x0d
    ensures ReadCrlfFrom(s, output).Raised?
    ensures ReadCrlfFrom(s, output).state == s.(readPosition := |s.data|)
    decreases |s.data| - s.readPosition
  {
    if s.readPosition < |s.data| {
      ReadCrlfTruncated(Advance(s, 1), output + [s.data[s.readPosition]]);
    }
  }

  lemma {:induction false} ReadCrlfFromReads(s: ByteStream, output: seq<byte>, bs: seq<byte>, last: byte)
    requires Upcoming(s, bs + [0x0d, last])
    requires forall i :: 0 <= i < |bs| ==> bs[i] != 0x0d
    ensures ReadCrlfFrom(s, output) == Ok(Latin1Decode(output + bs + [0x0d, last]), Advance(s, |bs| + 2))
    decreases |bs|
  {
    UpcomingHead(s, bs + [0x0d, last]);
    if bs == [] {
      assert (bs + [0x0d, last])[1..] == [last];
      UpcomingHead(Advance(s, 1), [last]);
      assert output + bs == output;
    } else {
      assert (bs + [0x0d, last])[1..] == bs[1..] + [0x0d, last];
      ReadCrlfFromReads(Advance(s, 1), output + [bs[0]], bs[1..], last);
      assert output + [bs[0]] + bs[1..] == output + bs;
    }
  }

  /** `read_crlf_string` returns every byte through the first 0x0D plus one more
      byte that is not checked to be 0x0A. */
  lemma CrlfStringReads(s: ByteStream, bs: seq<byte>, last: byte)
    requires Upcoming(s, bs + [0x0d, last])
    requires forall i :: 0 <= i < |bs| ==> bs[i] != 0x0d
    ensures ReadCrlfString(s) == Ok(Latin1Decode(bs + [0x0d, last]), Advance(s, |bs| + 2))
  {
    ReadCrlfFromReads(s, [], bs, last);
    assert [] + bs == bs;
  }

  /** When the stream ends right after the 0x0D, the unconditional extra
      `read_u8` raises. */
  lemma {:induction false} CrlfMissingLastByte(s: ByteStream, output: seq<byte>, bs: seq<byte>)
    requires Upcoming(s, bs + [0x0d]) && s.readPosition + |bs| + 1 == |s.data|
    requires forall i :: 0 <= i < |bs| ==> bs[i] != 0x0d
    ensures ReadCrlfFrom(s, output).Raised?
    decreases |bs|
  {
    var p := s.readPosition;
    if bs == [] {
      assert s.data[p] == 0x0d;
    } else {
      assert s.data[p] == bs[0];
      UpcomingAppend(s, [bs[0]], bs[1..] + [0x0d]);
      assert [bs[0]] + (bs[1..] + [0x0d]) == bs + [0x0d];
      CrlfMissingLastByte(Advance(s, 1), output + [bs[0]], bs[1..]);
    }
  }

  /** `read_vluq_string`: a VLUQ length, then `read_string` of that many bytes. */
  function ReadVluqString(s: ByteStream): (r: Outcome<string, ByteStream>)
    ensures r.Ok? <==> ReadVluq(s).Ok?
    ensures r.Ok? ==> r.state == Advance(ReadVluq(s).state, ReadVluq(s).value)
  {
    match ReadVluq(s)
    case Raised(e, t) => Raised(e, t)
    case Ok(n, t) =>
      var (text, u) := ReadString(t, n);
      Ok(text, u)
  }

  /** A VLUQ length prefix reads as its value and leaves the payload upcoming. */
  lemma VluqPrefixReads(s: ByteStream, n: nat, body: seq<byte>)
    requires Upcoming(s, EncodeVluq(n) + body)
    ensures ReadVluq(s) == Ok(n, Advance(s, |EncodeVluq(n)|))
    ensures Upcoming(Advance(s, |EncodeVluq(n)|), body)
  {
    UpcomingAppend(s, EncodeVluq(n), body);
    VluqEncodingLayout(n);
    ReadVluqReads(s, EncodeVluq(n));
  }

  /** `read_vluq_string` after `write_vluq_string(s)` returns `s` and consumes the
      length prefix plus `len(s)` bytes. */
  lemma VluqStringRoundTrip(s: ByteStream, text: string)
    requires IsLatin1(text)
    requires Upcoming(s, EncodeVluqString(text))
    ensures ReadVluqString(s) == Ok(text, Advance(s, |EncodeVluq(|text|)| + |text|))
  {
    var prefix, body := EncodeVluq(|text|), Latin1Encode(text);
    VluqPrefixReads(s, |text|, body);
    var t := Advance(s, |prefix|);
    ReadStringReads(t, body);
    Latin1DecodeEncode(text);
    assert Advance(t, |text|) == Advance(s, |prefix| + |text|);
  }

  /** On a stream read up to its end, each string reader gives back the text its
      writer just appended (for `nt` strings, text without a NUL) and consumes
      exactly the bytes written. */
  lemma StringWritesRead(s: ByteStream, text: string)
    requires IsLatin1(text)
    requires s.readPosition == |s.data|
    ensures ReadString(WriteString(s, text), |text|) == (text, Advance(WriteString(s, text), |text|))
    ensures (forall i :: 0 <= i < |text| ==> text[i] != 0 as char) ==>
              ReadNtString(WriteNtString(s, text)) == Ok(text, Advance(WriteNtString(s, text), |text| + 1))
    ensures ReadVluqString(WriteVluqString(s, text))
            == Ok(text, Advance(WriteVluqString(s, text), |EncodeVluq(|text|)| + |text|))
  {
    WrittenIsUpcoming(s, Latin1Encode(text));
    ReadStringReads(WriteString(s, text), Latin1Encode(text));
    Latin1DecodeEncode(text);
    if forall i :: 0 <= i < |text| ==> text[i] != 0 as char {
      WrittenIsUpcoming(s, EncodeNtString(text));
      NtStringRoundTrip(WriteNtString(s, text), text);
    }
    WrittenIsUpcoming(s, EncodeVluqString(text));
    VluqStringRoundTrip(WriteVluqString(s, text), text);
  }
}

=== FILE: wrappers.dfy ===
/** Failure-carrying results for the stream model.

    The modelled Python code signals failure only by raising `IndexError`, in two
    situations: indexing a `bytearray` out of range, and `list.pop()` on an empty
    list. Both are kept apart here so that contracts can say which one happened.
 */
module Wrappers {

  datatype Option<+T> = None | Some(value: T) {
    /** The carried value, or `default` when there is none (a Python `x if x is not None else default`). */
    function GetOr(default: T): T {
      match this
      case Some(v) => v
      case None => default
    }
  }

  /** The two ways the modelled code raises `IndexError`. */
  datatype Error =
    | IndexOutOfRange   // bytearray[i] with i outside [-len, len)
    | PopFromEmpty      // list.pop() on an empty stack

  /** Outcome of an operation whose failure leaves the object untouched
      (a `pop` raises before anything is assigned). */
  datatype Result<+T> = Success(value: T) | Failure(error: Error)

  /** Outcome of a read on a stateful stream. Python does not roll a stream back
      when a composite read raises half-way, so the state at the moment of the
      raise is carried alongside the error. */
  datatype Outcome<+T, +S> = Ok(value: T, state: S) | Raised(error: Error, state: S)
}
